=== FILE: README.md ===
# ProxyBuilder batch core in Dafny

ProxyBuilder (the `MXF2Prxy` app) is a macOS drop target. It turns MXF and
MOV camera clips into proxy files, either H.264 QuickTime or MPEG-2 MXF,
with an optional burnt-in watermark and an optional 3D LUT. This project
models the part of `HelloApp/main.swift` that decides what happens to a
dropped item:

- which dragged items the drop zone accepts (`containsAcceptableItem`);
- the job queue: standardized paths, duplicate refusal, the clip counter
  `totalClipsQueued`, one active job at a time (`enqueueJob`,
  `isDuplicateJob`, `startNextJobIfNeeded` and its completion handler);
- `processFolder`: a folder becomes its MXF/MOV entries sorted by name, with
  proxies in "<name> proxies" beside it; a file becomes a single clip, with
  its proxy in "m2p-proxies" beside it;
- `processNextFile`: per clip, the output name, the branch taken (MOV to
  QuickTime through the AVFoundation pre-pass and a second ffmpeg step;
  other clips to QuickTime in one pass; anything to MXF in two steps), the
  exact ffmpeg argument lists, which scratch file is removed and when, the
  failure log entries, and the single decrement of the clip counter per clip;
- `currentOutputFormat`.

The modules follow the program's structure:

| file | module | what it holds |
|---|---|---|
| wrappers.dfy | `Wrappers` | `Option` |
| paths.dfy | `Paths` | file URLs as component lists, the lexical part of standardization (`standardizedFileURL` without symbolic links, `/private` or tilde), last component, extension and stem, ASCII lower-casing, the path string |
| listing.dfy | `Listing` | the media-extension filter, name order, the sorted clip list |
| filesystem.dfy | `FileSystem` | a snapshot of the file system, the drop zone's acceptance test |
| commandline.dfy | `CommandLine` | ffmpeg options, a command as options plus an output, its tokens, an independent reader that takes tokens apart into options and an output, and ffmpeg's binding of options to the file they precede |
| filtergraph.dfy | `FilterGraph` | the watermark filter graph as a structure, its text, and the LUT splice |
| encoder.dfy | `Encoder` | the four ffmpeg argument lists of `processNextFile` |
| naming.dfy | `Naming` | the output format, the proxy folder, the proxy and scratch file names |
| jobqueue.dfy | `JobQueue` | the queue state and its transitions |
| batch.dfy | `Batch` | `processFolder`, each clip as a trace of actions, the walk over a job's clips, and what a job does to the queue |

Every platform effect is either an input or an action in a trace. The
inputs are: the file system snapshot; whether the proxy folder could be
created; for each clip, the watermark image (present or not), the LUT (on
and present, or not), the outcome of the AVFoundation pre-pass, and the exit
statuses of the clip's first and second ffmpeg runs. The actions are: run
the pre-pass, run ffmpeg on an argument list, remove a file, log a failure,
decrement the counter, and call the batch's completion handler. Applying a
trace to the queue state gives the state after the job.

## Model

| member | source | states |
|---|---|---|
| Paths.Standardize | HelloApp/main.swift:353 | the standardized path has no `.` or `..` components and is no longer than the input; this is the lexical part of `standardizedFileURL` only (see "Left out") |
| Paths.StandardizeFixes | HelloApp/main.swift:353 | a standardized path has no `.` or `..` components, and a path without them is its own standard form under lexical standardization (Foundation may still change it, see "Left out") |
| Paths.StandardizeIdempotent | HelloApp/main.swift:381-386 | standardizing twice is standardizing once, so comparing standardized paths of standardized paths is the same test |
| Paths.StemExtension | HelloApp/main.swift:724-726 | the stem is a prefix of the name, and if an extension exists the name is stem, dot, extension |
| Paths.WithExtension | HelloApp/main.swift:724-726 | appending "." and a dot-free extension to a non-empty stem gives back that stem and that extension |
| Paths.TextAppendInjective | HelloApp/main.swift:728 | two different file names in the same folder give different path strings |
| Listing.Insert | HelloApp/main.swift:684 | inserting into a sorted list keeps it sorted and adds exactly that one name |
| Listing.SortNames | HelloApp/main.swift:684 | the sort returns a sorted permutation of its input |
| Listing.SortedUnique | HelloApp/main.swift:684 | two sorted lists with the same names, counted by multiplicity, are equal |
| Listing.MediaNames | HelloApp/main.swift:682-684 | exactly the listing's names with extension `mxf` or `mov` in any letter case are kept, and none is added |
| Listing.ClipNames | HelloApp/main.swift:682-684 | the clip list is sorted, is a permutation of the media entries, and holds exactly the media names |
| Listing.CountMatchesClips | HelloApp/main.swift:365-370 | the count added when the job is queued equals the number of clips the batch will walk |
| Listing.ClipNamesIgnoreOrder | HelloApp/main.swift:682-684 | the clip list depends only on the listing's contents, not on the order the directory returns them |
| FileSystem.AnyAcceptable | HelloApp/main.swift:138-145 | a drag is accepted if and only if some item exists and is a folder or has an `mxf`/`mov` extension |
| CommandLine.ReadTokens | HelloApp/main.swift:955-963 | of the argument list handed to ffmpeg here, as ffmpeg's option reader takes it apart: reading back the tokens of a well-formed command with the option reader gives that command |
| CommandLine.TokensRead | HelloApp/main.swift:955-963 | of the argument list handed to ffmpeg here, as ffmpeg's option reader takes it apart: any token list the option reader accepts is the tokens of the well-formed command it reads |
| CommandLine.BindInputsFirst | HelloApp/main.swift:955-963 | of the argument list handed to ffmpeg here, as ffmpeg binds its options to files: when every `-i` comes before every other option, ffmpeg's binding gives each input no options of its own, the inputs are the `-i` values in order, and the output gets every other option with its values in order, so reading all options as the output's is exact |
| FilterGraph.LutGraphText | HelloApp/main.swift:807-811 | with a LUT the graph text is the LUT-free text with `lut3d=file='…',` spliced in right after the leading `[0:v]` |
| FilterGraph.LutComesFirst | HelloApp/main.swift:807-811 | the LUT, when present, is the first filter of the main chain and appears nowhere else |
| FilterGraph.OverlayIsLast | HelloApp/main.swift:763 | the overlay is the graph's last filter, takes the main picture and the scaled logo, and produces `[v]` |
| Encoder.SinglePassArgs | HelloApp/main.swift:874-886 | the single pass reads the clip (and the watermark if it is used), maps `[v]` or `0:v` then `0:a?`, encodes libx264 at preset fast and CRF 18 into yuv420p, copies audio, drops subtitles, and writes the proxy; no other option appears, and the inputs come before every other option |
| Encoder.MovStepArgs | HelloApp/main.swift:803-856 | the second MOV step reads the intermediate, the watermark if present, then the clip; the watermark graph (with the LUT spliced in) when the watermark is present, otherwise `-vf lut3d` when there is a LUT, otherwise no filter; maps picture and the clip's audio; libx264 at preset fast and CRF 18, no pixel format, audio copied, subtitles dropped; no other option appears, and the inputs come before every other option |
| Encoder.MxfFirstArgs | HelloApp/main.swift:898-910 | the first MXF step reads the clip (and the watermark if used), maps `[v]` or `0:v`, encodes MPEG-2 at 45M with a 45M max rate and a 90M buffer, drops audio (`-an`), and writes the temporary file; no other option appears, and the inputs come before every other option |
| Encoder.MxfSecondArgs | HelloApp/main.swift:922-937 | the second MXF step reads the clip and the temporary file, takes video from the temporary file and audio, data and subtitles from the clip, copies every stream with no filter, keeps metadata, and writes MXF; no other option appears, and the inputs come before every other option |
| Naming.FormatOf | HelloApp/main.swift:1142-1144 | segment 1 of the selector means MXF, and every other value means QuickTime |
| Naming.FormatExtension | HelloApp/main.swift:721-727 | `mov` exactly for QuickTime and `mxf` exactly for MXF, lower case and without a dot |
| Naming.FolderDestination | HelloApp/main.swift:677-679 | the proxy folder is a sibling of the dropped folder, named after it with " proxies" |
| Naming.FileDestination | HelloApp/main.swift:692-693 | the proxy folder of a dropped file is its sibling "m2p-proxies" |
| Naming.OutputName | HelloApp/main.swift:721-728 | the proxy keeps the clip's stem and takes the format's extension, so it is a media name, and a MOV name exactly for QuickTime |
| Naming.IntermediateName | HelloApp/main.swift:780 | the pre-pass output is the stem with `_8bit`, as a MOV |
| Naming.TempName | HelloApp/main.swift:901 | the temporary file is hidden (leading dot), the stem with `_temp`, as a MOV |
| Naming.ProxyNameSharedByStem | HelloApp/main.swift:721-728 | two clips get the same proxy name if and only if their names have the same stem, so `A001.mxf` and `A001.mov` in one folder share one proxy |
| Naming.ScratchNamesDiffer | HelloApp/main.swift:728-901 | the proxy, the intermediate and the temporary file of a clip have three different names |
| JobQueue.IsDuplicate | HelloApp/main.swift:381-386 | an item is a duplicate if and only if the active job or a queued job has the same standardized path |
| JobQueue.DuplicateMeansHeld | HelloApp/main.swift:381-386 | in a valid state an item is a duplicate if and only if its standardized path is among the jobs |
| JobQueue.ClipEstimate | HelloApp/main.swift:359-373 | a non-folder counts 1, an unreadable folder 0, and a folder its number of media entries |
| JobQueue.StartNext | HelloApp/main.swift:388-396 | while a job is active, or when nothing is queued, nothing changes; otherwise the head of the queue becomes active |
| JobQueue.Enqueue | HelloApp/main.swift:352-379 | a duplicate leaves the state unchanged; anything else adds its clip estimate to the counter |
| JobQueue.Decrement | HelloApp/main.swift:788 | one clip lowers the counter by exactly one and touches nothing else |
| JobQueue.Finish | HelloApp/main.swift:398-405 | the completion handler keeps the counter; the head of the queue, if any, becomes the active job and leaves the queue, and a batch is processing exactly when something was queued |
| JobQueue.StartNextKeepsOrder | HelloApp/main.swift:388-396 | starting the next job keeps the job order and sets "processing" exactly when a job is active |
| JobQueue.EnqueueAppends | HelloApp/main.swift:352-396 | a held item changes nothing; a new item goes to the end of the jobs, standardized, with its estimate added; a batch is then processing, and on an idle queue the new item is the active job with nothing waiting |
| JobQueue.FinishAdvances | HelloApp/main.swift:398-408 | the completion handler drops the active job and makes the next queued job active, if any |
| JobQueue.EnqueueValid | HelloApp/main.swift:352-379 | queuing keeps the state valid: active exactly when processing, nothing queued when idle, paths standardized, no job twice |
| JobQueue.FinishValid | HelloApp/main.swift:398-408 | the completion handler keeps the state valid |
| JobQueue.Drop | HelloApp/main.swift:73-92 | the drop is reported as handled exactly when some item is acceptable |
| JobQueue.DropHoldsAccepted | HelloApp/main.swift:73-92 | after a drop the state is valid, the earlier jobs are still a prefix, every item that passed the test is held, and every new job is the standardized path of an item that passed it |
| JobQueue.DropAddsOnlyAccepted | HelloApp/main.swift:82-90 | a drop adds no job other than the standardized path of an item that passed the drop zone's test |
| JobQueue.DropEnqueuesAccepted | HelloApp/main.swift:82-90 | a drop is exactly `enqueueJob` applied, in drag order, to the items that pass the test, and to no other item |
| Batch.ProcessFolder | HelloApp/main.swift:660-711 | a folder runs if and only if it lists and the proxy folder is created, with its media entries sorted by name; a file runs as the single clip; the proxy folder is the matching sibling |
| Batch.PlanMatchesEstimate | HelloApp/main.swift:359-373 | a job that runs walks exactly the number of clips its queuing counted |
| Batch.MovClip | HelloApp/main.swift:776-869 | a MOV clip's QuickTime trace is a body with no decrement and no completion, followed by exactly one decrement, on the failed pre-pass branch and on the encode branch alike |
| Batch.SinglePassClip | HelloApp/main.swift:873-897 | the single-pass trace is a body with no decrement and no completion, followed by exactly one decrement |
| Batch.MxfClip | HelloApp/main.swift:898-948 | an MXF clip's trace is a body with no decrement and no completion, followed by exactly one decrement, whether the first step fails or both run |
| Batch.ClipActions | HelloApp/main.swift:773-951 | whichever branch the format and the clip's extension pick, the clip ends in exactly one decrement and never completes the batch |
| Batch.ClipLogsFailure | HelloApp/main.swift:773-951 | a clip logs at most one failure, and logs one exactly when a stage it ran failed |
| Batch.MxfSecondStepGated | HelloApp/main.swift:913-922 | the MXF second step runs exactly when the first step exited with 0 |
| Batch.QuickTimeRunsOnce | HelloApp/main.swift:773-897 | QuickTime output runs ffmpeg at most once per clip, and not at all after a failed pre-pass |
| Batch.QuickTimeCleanup | HelloApp/main.swift:780-866 | one file is removed exactly when the MOV pre-pass succeeded: the intermediate, which is not the proxy; in the clip's ordered runs and removals it is removed last, after the ffmpeg step that reads it |
| Batch.MxfCleanup | HelloApp/main.swift:913-941 | one file is removed exactly when the first MXF step succeeded: the temporary file, which is not the proxy; in the clip's ordered runs and removals it is removed last, after the second step, which reads it |
| Batch.MxfScratchFlow | HelloApp/main.swift:901-937 | the first MXF step writes the temporary file and the second step reads it and writes the proxy |
| Batch.ProxyWritten | HelloApp/main.swift:773-951 | some run writes the proxy exactly when the clip reaches its last stage, and that is the clip's last run |
| Batch.WatermarkBurntIn | HelloApp/main.swift:757-826 | the watermark is overlaid exactly when the image is present and the clip is not a MOV or is a MOV going to QuickTime past its pre-pass, and an overlaying step opens the image as an input |
| Batch.LutOnlyMovQuickTime | HelloApp/main.swift:796-856 | the LUT setting changes nothing except the QuickTime encode of a MOV clip |
| Batch.ProcessNextFile | HelloApp/main.swift:713-719 | the walk from an index decrements once per remaining clip and calls the completion handler exactly once, last |
| Batch.RunJob | HelloApp/main.swift:660-711 | a job calls the completion handler exactly once, last, and decrements once per clip if it runs and never if it aborts |
| Batch.WalkInOrder | HelloApp/main.swift:713-951 | the walk from an index converts every clip from that index on exactly once, in list order, each with its own platform answers and the job's format, and then calls the completion handler |
| Batch.JobConverts | HelloApp/main.swift:660-711 | a job whose listing or proxy folder fails only calls the completion handler; otherwise it converts the clips `processFolder` found, in order, in the format read from the selector, then calls the completion handler |
| Batch.WalkLogsFailures | HelloApp/main.swift:713-951 | the failure log of a walk holds one entry per clip that had a failed stage |
| Batch.WalkWritesProxies | HelloApp/main.swift:713-951 | every clip of the walk that reaches its last stage has its proxy written by some ffmpeg run of the walk |
| Batch.ApplyQuiet | HelloApp/main.swift:788 | a trace without the completion handler only lowers the counter, once per decrement |
| Batch.Apply | HelloApp/main.swift:788 | running a trace lowers the counter by exactly its number of decrements, and a trace without the completion handler leaves the queue, the active job and the processing flag as they were |
| Batch.WalkApply | HelloApp/main.swift:713-719 | the walk lowers the counter once per remaining clip, then finishes the job |
| Batch.JobBalance | HelloApp/main.swift:398-408 | a job that runs lowers the counter by what its queuing added, an aborted one leaves it, and either way the job leaves, the next starts, and the state stays valid |
| Batch.EnqueueOnIdle | HelloApp/main.swift:352-396 | an item dropped on an idle app becomes the active job at once, with its clips counted |
| Batch.SingleJobDrains | HelloApp/main.swift:352-408 | after the job of an item dropped on an idle app has run, with its proxy folder created, the app is idle with the counter back at zero |
| Batch.ArgvAgrees | HelloApp/main.swift:743-951 | every step's argument list writes the step's output, opens its inputs in order and before any other option, and has a filter graph exactly when the step overlays the watermark |

## Left out

- The AppKit interface: windows, buttons, colours, menus, the settings panel, and the drop zone's enabled state (`updateDropZoneAvailability`).
- The pasteboard decoding in `extractFileURLs`; the dragged items are the input.
- Saving the format selection and managing LUTs in UserDefaults. The LUT path (present or not) and the watermark image (present or not) are inputs per clip.
- `runProcessDetached`: starting the process and sending its output to the log. Each run is an action, and its exit status is an input; the -1 reported when ffmpeg is missing or does not start is just one such input value.
- `convertProResWithAVFoundation`: the pre-pass is an action, and its success is an input.
- Log lines other than the failure entries (the ffmpeg path, step messages, the LUT check, "Conversion complete") and the creation of the log file.
- Grand Central Dispatch. The model is sequential: each job runs to its completion handler before the queue moves on, which is also the order the main-queue callbacks impose.
- Folder listing and folder creation failures are inputs. A failure aborts the job with only the completion handler. As in the source, the clips counted at queuing time then stay in the counter.
- One file-system snapshot serves both the counting at queuing time and the listing when the job starts. The source reads the disk twice.
- Name order is lexicographic order on characters. Swift's `<` on strings compares Unicode canonical forms, and the two agree on ASCII names.
- Lower-casing of extensions is ASCII only.
- Paths.Standardize: standardization is lexical only (`.` dropped, `..` removing the component before it). Foundation's `standardizedFileURL` also resolves `..` through symbolic links, strips a leading `/private` when the shorter path exists, and expands a leading tilde; these depend on the disk, which the snapshot does not describe. So `/private/tmp/clips` and `/tmp/clips` are different jobs in the model, while the source refuses the second as a duplicate.
- Paths.StandardizeFixes: a path without `.` or `..` components is its own standard form only under the lexical standardization; Foundation may still rewrite it for the reasons above.
- The last component of the root path is modelled as the empty string; Foundation gives "/".
- The second MOV step is one argument list with optional pieces. The source spells out three literal lists, and the three cases of `Encoder.MovStepArgs` state each list's contents.
- The watermark graph is modelled as a structure (`FilterGraph.WatermarkGraph`) rendered to text. That the rendering equals the literal filter string at lines 763 and 811 is stated by construction, not proved as a string equality.
- `selectFolder` (the folder picker) and `handleDrop` only forward to `enqueueJob`, which is modelled.
- ffmpeg's option semantics beyond the binding of options to files. The reader collects every option regardless of position. That matches ffmpeg only for lists whose inputs come first, which the builders' contracts state. A global option such as `-filter_complex` is kept with the output's options.
- What ffmpeg does when its output file already exists, for instance when two clips share a stem (see `Naming.ProxyNameSharedByStem`). The argument lists carry no `-y`, and the model stops at the argument list.
- `totalClipsQueued` is an unbounded integer and is never clamped. No lemma claims it stays non-negative.

=== FILE: batch.dfy ===
/**
  One job of the queue from start to completion: `processFolder` turns the
  job into a clip list and a proxy folder, and `processNextFile` walks the
  clips by index, each clip ending in exactly one decrement of the clip
  total before the walk moves on. What the platform does (the AVFoundation
  pre-pass, ffmpeg, removing a file) appears as actions in a trace, and
  what it answers (the pre-pass outcome, exit statuses, whether the
  watermark image and a LUT are present) comes in as a per-clip record.
 */
module Batch {
  import opened Wrappers
  import opened Paths
  import opened Listing
  import opened FileSystem
  import opened CommandLine
  import opened FilterGraph
  import opened Encoder
  import opened Naming
  import opened JobQueue

  // ---------------------------------------------------------------------
  // Planning a job
  // ---------------------------------------------------------------------

  /** A job either stops before any clip (listing or folder creation failed) or runs over its clips. */
  datatype Plan = Abort | Run(clips: seq<Path>, dest: Path)

  function ClipPaths(folder: Path, names: seq<string>): (r: seq<Path>)
    ensures |r| == |names|
    ensures forall i :: 0 <= i < |names| ==> r[i] == Append(folder, names[i])
  {
    seq(|names|, i requires 0 <= i < |names| => Append(folder, names[i]))
  }

  /** The file names of a clip list. */
  function NamesOf(clips: seq<Path>): (r: seq<string>)
    ensures |r| == |clips|
    ensures forall i :: 0 <= i < |clips| ==> r[i] == LastComponent(clips[i])
  {
    seq(|clips|, i requires 0 <= i < |clips| => LastComponent(clips[i]))
  }

  /**
    `processFolder`. A folder is listed (a failed listing aborts), its
    MXF/MOV entries sorted by name become the clips, and the proxies go to
    "<name> proxies" beside it; anything else is a single clip whose proxy
    goes to "m2p-proxies" beside it. Failing to create the proxy folder
    aborts as well.
   */
  function ProcessFolder(fs: Snapshot, job: Path, mkdirOk: bool): (r: Plan)
    ensures IsFolder(fs, job) ==> (r.Run? <==> Lookup(fs, job).value.listing.Some? && mkdirOk)
    ensures !IsFolder(fs, job) ==> (r.Run? <==> mkdirOk)
    ensures r.Run? && IsFolder(fs, job) ==>
              var listing := Lookup(fs, job).value.listing.value;
              && r.dest == FolderDestination(job)
              && Sorted(NamesOf(r.clips))
              && multiset(NamesOf(r.clips)) == multiset(MediaNames(listing))
              && (forall i :: 0 <= i < |r.clips| ==> Parent(r.clips[i]) == job)
    ensures r.Run? && !IsFolder(fs, job) ==> r.clips == [job] && r.dest == FileDestination(job)
  {
    if IsFolder(fs, job) then
      match Lookup(fs, job).value.listing
      case None => Abort
      case Some(listing) =>
        var names := ClipNames(listing);
        var clips := ClipPaths(job, names);
        assert NamesOf(clips) == names;
        if mkdirOk then Run(clips, FolderDestination(job)) else Abort
    else
      if mkdirOk then Run([job], FileDestination(job)) else Abort
  }

  /**
    The clips a job runs are the clips its enqueue counted: with the same
    file system, a job that runs decrements the total by what it added.
   */
  lemma PlanMatchesEstimate(fs: Snapshot, job: Path, mkdirOk: bool)
    ensures ProcessFolder(fs, job, mkdirOk).Run? ==> |ProcessFolder(fs, job, mkdirOk).clips| == ClipEstimate(fs, job)
    ensures IsFolder(fs, job) && Lookup(fs, job).value.listing.None? ==> ClipEstimate(fs, job) == 0
  {
  }

  // ---------------------------------------------------------------------
  // One clip
  // ---------------------------------------------------------------------

  /**
    What the platform answers while one clip is converted: the watermark
    image if the bundle has one, the LUT if one is enabled and present, the
    outcome of the AVFoundation pre-pass, and the exit statuses of the
    clip's first and second ffmpeg runs (-1 when ffmpeg cannot be found).
   */
  datatype ClipEnv = ClipEnv(watermark: Option<Path>, lut: Option<Path>, prepassOk: bool, exit1: int, exit2: int)

  /** The log entry a failed step leaves. */
  datatype Failure = PrepassFailed | WatermarkFailed | EncodeFailed | RemuxFailed

  /** An ffmpeg run, by the argument list it is given. */
  datatype Step =
    | SinglePass(src: Path, watermark: Option<Path>, isMov: bool, out: Path)
    | MovStep(eightBit: Path, watermark: Option<Path>, src: Path, lut: Option<Path>, out: Path)
    | MxfFirst(src: Path, watermark: Option<Path>, isMov: bool, temp: Path)
    | MxfSecond(src: Path, temp: Path, out: Path)

  /** The tokens ffmpeg is started with for a step. */
  function Argv(step: Step): seq<string> {
    match step
    case SinglePass(src, watermark, isMov, out) => SinglePassArgs(src, watermark, isMov, out)
    case MovStep(eightBit, watermark, src, lut, out) => MovStepArgs(eightBit, watermark, src, lut, out)
    case MxfFirst(src, watermark, isMov, temp) => MxfFirstArgs(src, watermark, isMov, temp)
    case MxfSecond(src, temp, out) => MxfSecondArgs(src, temp, out)
  }

  /** Where a step writes. */
  function StepOutput(step: Step): Path {
    match step
    case SinglePass(_, _, _, out) => out
    case MovStep(_, _, _, _, out) => out
    case MxfFirst(_, _, _, temp) => temp
    case MxfSecond(_, _, out) => out
  }

  /** What a step reads, as the path strings of its inputs in order (`0`, `1`, ...). */
  function StepInputs(step: Step): seq<string> {
    match step
    case SinglePass(src, watermark, isMov, _) =>
      [Text(src)] + (if Watermarked(watermark, isMov) then [Text(watermark.value)] else [])
    case MovStep(eightBit, watermark, src, _, _) =>
      [Text(eightBit)] + (if watermark.Some? then [Text(watermark.value)] else []) + [Text(src)]
    case MxfFirst(src, watermark, isMov, _) =>
      [Text(src)] + (if Watermarked(watermark, isMov) then [Text(watermark.value)] else [])
    case MxfSecond(src, temp, _) => [Text(src), Text(temp)]
  }

  /** Does a step lay the watermark image over the picture? */
  predicate StepOverlays(step: Step) {
    match step
    case SinglePass(_, watermark, isMov, _) => Watermarked(watermark, isMov)
    case MovStep(_, watermark, _, _, _) => watermark.Some?
    case MxfFirst(_, watermark, isMov, _) => Watermarked(watermark, isMov)
    case MxfSecond(_, _, _) => false
  }

  datatype Action =
    | Prepass(input: Path, output: Path)
    | Encode(step: Step)
    | Remove(target: Path)
    | LogFailure(clip: string, failure: Failure)
    | Decrement
    | Complete

  /**
    The actions of a clip or a batch in the order they happen: `Then(a, b)`
    performs `a`, then `b`.
   */
  datatype Trace = Skip | Do(action: Action) | Then(first: Trace, next: Trace)

  /** The decrements of `totalClipsQueued` in a trace. */
  function Decrements(t: Trace): nat {
    match t
    case Skip => 0
    case Do(a) => if a.Decrement? then 1 else 0
    case Then(x, y) => Decrements(x) + Decrements(y)
  }

  /** The calls of the batch's completion handler in a trace. */
  function Completions(t: Trace): nat {
    match t
    case Skip => 0
    case Do(a) => if a.Complete? then 1 else 0
    case Then(x, y) => Completions(x) + Completions(y)
  }

  /** The ffmpeg runs of a trace, in order. */
  function Runs(t: Trace): seq<Step> {
    match t
    case Skip => []
    case Do(a) => if a.Encode? then [a.step] else []
    case Then(x, y) => Concat(Runs(x), Runs(y))
  }

  /** The files a trace removes, in order. */
  function Removed(t: Trace): seq<Path> {
    match t
    case Skip => []
    case Do(a) => if a.Remove? then [a.target] else []
    case Then(x, y) => Concat(Removed(x), Removed(y))
  }

  /** The failures a trace logs, in order. */
  function Failures(t: Trace): seq<Failure> {
    match t
    case Skip => []
    case Do(a) => if a.LogFailure? then [a.failure] else []
    case Then(x, y) => Concat(Failures(x), Failures(y))
  }

  /** The ffmpeg runs and the removals of a trace, in the order they touch the disk. */
  function FileOps(t: Trace): seq<Action> {
    match t
    case Skip => []
    case Do(a) => if a.Encode? || a.Remove? then [a] else []
    case Then(x, y) => Concat(FileOps(x), FileOps(y))
  }

  /** One step of each view, usable at any depth of a trace. */
  lemma TraceSteps()
    ensures forall x, y {:trigger Then(x, y)} ::
              && Decrements(Then(x, y)) == Decrements(x) + Decrements(y)
              && Completions(Then(x, y)) == Completions(x) + Completions(y)
              && Runs(Then(x, y)) == Concat(Runs(x), Runs(y))
              && Removed(Then(x, y)) == Concat(Removed(x), Removed(y))
              && Failures(Then(x, y)) == Concat(Failures(x), Failures(y))
  {
  }

  function ProxyPath(clip: Path, dest: Path, format: OutputFormat): Path {
    Append(dest, OutputName(LastComponent(clip), format))
  }

  function IntermediatePath(clip: Path, dest: Path): Path {
    Append(dest, IntermediateName(LastComponent(clip)))
  }

  function TempPath(clip: Path, dest: Path): Path {
    Append(dest, TempName(LastComponent(clip)))
  }

  /** A clip's trace: a body without decrements, then the one decrement; the batch is never completed inside. */
  predicate ClipShaped(t: Trace) {
    && t.Then? && t.next == Do(Decrement)
    && Decrements(t.first) == 0
    && Completions(t) == 0
  }

  function FailureLog(name: string, failed: bool, failure: Failure): (r: Trace)
    ensures Decrements(r) == 0 && Completions(r) == 0
    ensures Failures(r) == if failed then [failure] else []
  {
    if failed then Do(LogFailure(name, failure)) else Skip
  }

  /**
    QuickTime from MOV: the pre-pass writes the 8-bit intermediate; if it
    fails the clip ends there. Otherwise ffmpeg encodes the intermediate
    with the LUT and the watermark, a failure is logged, and only then is
    the intermediate removed.
   */
  function MovClip(clip: Path, dest: Path, env: ClipEnv): (r: Trace)
    ensures ClipShaped(r)
  {
    var name := LastComponent(clip);
    var inter := IntermediatePath(clip, dest);
    var prepass := Do(Prepass(clip, inter));
    TraceSteps();
    if !env.prepassOk then
      Then(Then(prepass, Do(LogFailure(name, PrepassFailed))), Do(Decrement))
    else
      var step := Do(Encode(MovStep(inter, env.watermark, clip, env.lut, ProxyPath(clip, dest, QuickTime))));
      Then(Then(Then(Then(prepass, step), FailureLog(name, env.exit1 != 0, WatermarkFailed)), Do(Remove(inter))),
           Do(Decrement))
  }

  /** QuickTime from anything but MOV: one ffmpeg pass, its failure logged. */
  function SinglePassClip(clip: Path, dest: Path, env: ClipEnv): (r: Trace)
    ensures ClipShaped(r)
  {
    var name := LastComponent(clip);
    var step := Do(Encode(SinglePass(clip, env.watermark, IsMovName(name), ProxyPath(clip, dest, QuickTime))));
    TraceSteps();
    Then(Then(step, FailureLog(name, env.exit1 != 0, EncodeFailed)), Do(Decrement))
  }

  /**
    MXF: the first step writes the hidden temporary file; if it fails the
    clip ends there. Otherwise the second step remuxes, the temporary file
    is removed, and only then is a failure of the second step logged.
   */
  function MxfClip(clip: Path, dest: Path, env: ClipEnv): (r: Trace)
    ensures ClipShaped(r)
  {
    var name := LastComponent(clip);
    var temp := TempPath(clip, dest);
    var first := Do(Encode(MxfFirst(clip, env.watermark, IsMovName(name), temp)));
    TraceSteps();
    if env.exit1 != 0 then
      Then(Then(first, Do(LogFailure(name, EncodeFailed))), Do(Decrement))
    else
      var second := Do(Encode(MxfSecond(clip, temp, ProxyPath(clip, dest, Mxf))));
      Then(Then(Then(Then(first, second), Do(Remove(temp))), FailureLog(name, env.exit2 != 0, RemuxFailed)),
           Do(Decrement))
  }

  /**
    The body of `processNextFile` for one clip, up to the call that moves
    to the next index: the format and the clip's extension pick the branch.
   */
  function ClipActions(clip: Path, dest: Path, format: OutputFormat, env: ClipEnv): (r: Trace)
    ensures ClipShaped(r)
  {
    match format
    case QuickTime =>
      if IsMovName(LastComponent(clip)) then MovClip(clip, dest, env) else SinglePassClip(clip, dest, env)
    case Mxf => MxfClip(clip, dest, env)
  }

  // ---------------------------------------------------------------------
  // What a clip's trace shows
  // ---------------------------------------------------------------------

  /** Has the clip reached the step that writes its proxy? */
  predicate ReachesProxy(format: OutputFormat, isMov: bool, env: ClipEnv) {
    match format
    case QuickTime => !isMov || env.prepassOk
    case Mxf => env.exit1 == 0
  }

  /** Did the clip run a second stage that consumes a scratch file? */
  predicate HasSecondStage(format: OutputFormat, isMov: bool, env: ClipEnv) {
    match format
    case QuickTime => isMov && env.prepassOk
    case Mxf => env.exit1 == 0
  }

  /** Did any stage the clip ran fail? */
  predicate ClipFailed(format: OutputFormat, isMov: bool, env: ClipEnv) {
    match format
    case QuickTime => if isMov then !env.prepassOk || env.exit1 != 0 else env.exit1 != 0
    case Mxf => env.exit1 != 0 || env.exit2 != 0
  }

  lemma MovClipViews(clip: Path, dest: Path, env: ClipEnv)
    ensures var t := MovClip(clip, dest, env);
            var inter := IntermediatePath(clip, dest);
            && Runs(t) == (if env.prepassOk then [MovStep(inter, env.watermark, clip, env.lut, ProxyPath(clip, dest, QuickTime))] else [])
            && Removed(t) == (if env.prepassOk then [inter] else [])
            && Failures(t) == (if !env.prepassOk then [PrepassFailed] else if env.exit1 != 0 then [WatermarkFailed] else [])
  {
    var name := LastComponent(clip);
    var inter := IntermediatePath(clip, dest);
    var prepass := Do(Prepass(clip, inter));
    TraceSteps();
    if env.prepassOk {
      var run := Do(Encode(MovStep(inter, env.watermark, clip, env.lut, ProxyPath(clip, dest, QuickTime))));
      var log := FailureLog(name, env.exit1 != 0, WatermarkFailed);
      var body := Then(Then(Then(prepass, run), log), Do(Remove(inter)));
      assert MovClip(clip, dest, env) == Then(body, Do(Decrement));
      assert Runs(log) == [] && Removed(log) == [];
    } else {
      assert MovClip(clip, dest, env) == Then(Then(prepass, Do(LogFailure(name, PrepassFailed))), Do(Decrement));
    }
  }

  lemma SinglePassClipViews(clip: Path, dest: Path, env: ClipEnv)
    ensures var t := SinglePassClip(clip, dest, env);
            && Runs(t) == [SinglePass(clip, env.watermark, IsMovName(LastComponent(clip)), ProxyPath(clip, dest, QuickTime))]
            && Removed(t) == []
            && Failures(t) == (if env.exit1 != 0 then [EncodeFailed] else [])
  {
    TraceSteps();
  }

  lemma MxfClipRuns(clip: Path, dest: Path, env: ClipEnv)
    ensures var temp := TempPath(clip, dest);
            var first := MxfFirst(clip, env.watermark, IsMovName(LastComponent(clip)), temp);
            Runs(MxfClip(clip, dest, env))
              == if env.exit1 != 0 then [first] else [first, MxfSecond(clip, temp, ProxyPath(clip, dest, Mxf))]
  {
    TraceSteps();
  }

  lemma MxfClipViews(clip: Path, dest: Path, env: ClipEnv)
    ensures var t := MxfClip(clip, dest, env);
            && Removed(t) == (if env.exit1 != 0 then [] else [TempPath(clip, dest)])
            && Failures(t) == (if env.exit1 != 0 then [EncodeFailed] else if env.exit2 != 0 then [RemuxFailed] else [])
  {
    TraceSteps();
  }

  lemma MovClipFileOps(clip: Path, dest: Path, env: ClipEnv)
    ensures var inter := IntermediatePath(clip, dest);
            FileOps(MovClip(clip, dest, env))
              == if env.prepassOk
                 then [Encode(MovStep(inter, env.watermark, clip, env.lut, ProxyPath(clip, dest, QuickTime))), Remove(inter)]
                 else []
  {
    var name := LastComponent(clip);
    var inter := IntermediatePath(clip, dest);
    var prepass := Do(Prepass(clip, inter));
    assert FileOps(prepass) == [] && FileOps(Do(Decrement)) == [];
    if env.prepassOk {
      var run := Encode(MovStep(inter, env.watermark, clip, env.lut, ProxyPath(clip, dest, QuickTime)));
      var log := FailureLog(name, env.exit1 != 0, WatermarkFailed);
      assert FileOps(log) == [];
      assert FileOps(Then(prepass, Do(run))) == [run];
      assert FileOps(Then(Then(prepass, Do(run)), log)) == [run];
      assert FileOps(Then(Then(Then(prepass, Do(run)), log), Do(Remove(inter)))) == [run, Remove(inter)];
    } else {
      assert FileOps(Then(prepass, Do(LogFailure(name, PrepassFailed)))) == [];
    }
  }

  lemma MxfClipFileOps(clip: Path, dest: Path, env: ClipEnv)
    ensures var temp := TempPath(clip, dest);
            FileOps(MxfClip(clip, dest, env))
              == if env.exit1 != 0
                 then [Encode(MxfFirst(clip, env.watermark, IsMovName(LastComponent(clip)), temp))]
                 else [Encode(MxfFirst(clip, env.watermark, IsMovName(LastComponent(clip)), temp)),
                       Encode(MxfSecond(clip, temp, ProxyPath(clip, dest, Mxf))), Remove(temp)]
  {
    var name := LastComponent(clip);
    var temp := TempPath(clip, dest);
    var first := Encode(MxfFirst(clip, env.watermark, IsMovName(name), temp));
    assert FileOps(Do(Decrement)) == [];
    if env.exit1 != 0 {
      assert FileOps(Then(Do(first), Do(LogFailure(name, EncodeFailed)))) == [first];
    } else {
      var second := Encode(MxfSecond(clip, temp, ProxyPath(clip, dest, Mxf)));
      var log := FailureLog(name, env.exit2 != 0, RemuxFailed);
      assert FileOps(log) == [];
      assert FileOps(Then(Do(first), Do(second))) == [first, second];
      assert FileOps(Then(Then(Do(first), Do(second)), Do(Remove(temp)))) == [first, second, Remove(temp)];
      assert FileOps(Then(Then(Then(Do(first), Do(second)), Do(Remove(temp))), log)) == [first, second, Remove(temp)];
    }
  }

  /** A clip logs at most one failure, and logs one exactly when a stage it ran failed. */
  lemma ClipLogsFailure(clip: Path, dest: Path, format: OutputFormat, env: ClipEnv)
    ensures var f := Failures(ClipActions(clip, dest, format, env));
            && |f| <= 1
            && (|f| == 1 <==> ClipFailed(format, IsMovName(LastComponent(clip)), env))
  {
    MovClipViews(clip, dest, env);
    SinglePassClipViews(clip, dest, env);
    MxfClipViews(clip, dest, env);
  }

  /** For MXF output the second ffmpeg step runs exactly when the first one exited with 0. */
  lemma MxfSecondStepGated(clip: Path, dest: Path, env: ClipEnv)
    ensures var r := Runs(ClipActions(clip, dest, Mxf, env));
            && |r| >= 1 && r[0].MxfFirst?
            && (|r| == 2 <==> env.exit1 == 0)
            && |r| <= 2
  {
    MxfClipRuns(clip, dest, env);
  }

  /** QuickTime output runs ffmpeg at most once per clip, and not at all after a failed pre-pass. */
  lemma QuickTimeRunsOnce(clip: Path, dest: Path, env: ClipEnv)
    ensures var r := Runs(ClipActions(clip, dest, QuickTime, env));
            && |r| <= 1
            && (|r| == 0 <==> IsMovName(LastComponent(clip)) && !env.prepassOk)
  {
    MovClipViews(clip, dest, env);
    SinglePassClipViews(clip, dest, env);
  }

  /** Two files in the proxy folder with different names are different paths, as strings too. */
  lemma DifferentFiles(dest: Path, a: string, b: string)
    requires a != b
    ensures Append(dest, a) != Append(dest, b)
    ensures Text(Append(dest, a)) != Text(Append(dest, b))
  {
    TextAppendInjective(dest, a, b);
  }

  /** A file operation that is an ffmpeg run opening `p` as one of its inputs. */
  predicate Reads(op: Action, p: Path) {
    op.Encode? && Text(p) in StepInputs(op.step)
  }

  /**
    `p` is removed by the last file operation, after a run that reads it:
    nothing opens the file once it is gone.
   */
  predicate RemovedAfterUse(ops: seq<Action>, p: Path) {
    && |ops| > 0 && ops[|ops| - 1] == Remove(p)
    && exists i :: 0 <= i < |ops| - 1 && Reads(ops[i], p)
  }

  /**
    QuickTime cleanup: a file is removed exactly when the MOV pre-pass
    succeeded, and it is the 8-bit intermediate, which is not the proxy and
    which the ffmpeg step before the removal reads; the removal is the
    clip's last file operation, as it runs in that step's termination
    handler.
   */
  lemma QuickTimeCleanup(clip: Path, dest: Path, env: ClipEnv)
    ensures var t := ClipActions(clip, dest, QuickTime, env);
            && |Removed(t)| == (if HasSecondStage(QuickTime, IsMovName(LastComponent(clip)), env) then 1 else 0)
            && (|Removed(t)| == 1 ==>
                  var p := Removed(t)[0];
                  var r := Runs(t);
                  && p == IntermediatePath(clip, dest)
                  && p != ProxyPath(clip, dest, QuickTime)
                  && |r| == 1 && Text(p) in StepInputs(r[0])
                  && RemovedAfterUse(FileOps(t), p))
  {
    if IsMovName(LastComponent(clip)) {
      MovCleanup(clip, dest, env);
      assert ClipActions(clip, dest, QuickTime, env) == MovClip(clip, dest, env);
    } else {
      SinglePassClipViews(clip, dest, env);
      assert ClipActions(clip, dest, QuickTime, env) == SinglePassClip(clip, dest, env);
    }
  }

  lemma MovCleanup(clip: Path, dest: Path, env: ClipEnv)
    ensures var t := MovClip(clip, dest, env);
            && |Removed(t)| == (if env.prepassOk then 1 else 0)
            && (|Removed(t)| == 1 ==>
                  var p := Removed(t)[0];
                  var r := Runs(t);
                  && p == IntermediatePath(clip, dest)
                  && p != ProxyPath(clip, dest, QuickTime)
                  && |r| == 1 && Text(p) in StepInputs(r[0])
                  && RemovedAfterUse(FileOps(t), p))
  {
    var name := LastComponent(clip);
    ScratchNamesDiffer(name, QuickTime);
    MovClipViews(clip, dest, env);
    DifferentFiles(dest, OutputName(name, QuickTime), IntermediateName(name));
    if env.prepassOk {
      MovRemovesAfterUse(clip, dest, env);
    }
  }

  lemma MovRemovesAfterUse(clip: Path, dest: Path, env: ClipEnv)
    requires env.prepassOk
    ensures RemovedAfterUse(FileOps(MovClip(clip, dest, env)), IntermediatePath(clip, dest))
  {
    MovClipFileOps(clip, dest, env);
    var ops := FileOps(MovClip(clip, dest, env));
    assert Reads(ops[0], IntermediatePath(clip, dest));
  }

  /**
    MXF cleanup: a file is removed exactly when the first step succeeded,
    and it is the temporary file, which is not the proxy. The removal is
    the clip's last file operation and comes after the second step, which
    reads the temporary file, as it runs in that step's termination
    handler.
   */
  lemma MxfCleanup(clip: Path, dest: Path, env: ClipEnv)
    ensures var t := ClipActions(clip, dest, Mxf, env);
            && |Removed(t)| == (if env.exit1 == 0 then 1 else 0)
            && (|Removed(t)| == 1 ==>
                  var ops := FileOps(t);
                  && Removed(t)[0] == TempPath(clip, dest)
                  && TempPath(clip, dest) != ProxyPath(clip, dest, Mxf)
                  && RemovedAfterUse(ops, TempPath(clip, dest))
                  && exists i :: 0 <= i < |ops| - 1 && ops[i].Encode? && ops[i].step.MxfSecond? && Reads(ops[i], TempPath(clip, dest)))
  {
    var name := LastComponent(clip);
    ScratchNamesDiffer(name, Mxf);
    MxfClipViews(clip, dest, env);
    if env.exit1 == 0 {
      MxfRemovesAfterUse(clip, dest, env);
    }
  }

  lemma MxfRemovesAfterUse(clip: Path, dest: Path, env: ClipEnv)
    requires env.exit1 == 0
    ensures var ops := FileOps(MxfClip(clip, dest, env));
            var temp := TempPath(clip, dest);
            && RemovedAfterUse(ops, temp)
            && exists i :: 0 <= i < |ops| - 1 && ops[i].Encode? && ops[i].step.MxfSecond? && Reads(ops[i], temp)
  {
    MxfClipFileOps(clip, dest, env);
    var ops := FileOps(MxfClip(clip, dest, env));
    var temp := TempPath(clip, dest);
    assert StepInputs(ops[1].step) == [Text(clip), Text(temp)];
    assert Reads(ops[1], temp);
  }

  /** The temporary file the MXF first step writes is what the second step reads. */
  lemma MxfScratchFlow(clip: Path, dest: Path, env: ClipEnv)
    ensures var r := Runs(ClipActions(clip, dest, Mxf, env));
            var temp := TempPath(clip, dest);
            && |r| >= 1 && StepOutput(r[0]) == temp
            && (|r| == 2 ==> Text(temp) in StepInputs(r[1]) && StepOutput(r[1]) == ProxyPath(clip, dest, Mxf))
  {
    MxfClipRuns(clip, dest, env);
    var temp := TempPath(clip, dest);
    var r := Runs(MxfClip(clip, dest, env));
    assert r[0] == MxfFirst(clip, env.watermark, IsMovName(LastComponent(clip)), temp);
    if env.exit1 == 0 {
      var second := MxfSecond(clip, temp, ProxyPath(clip, dest, Mxf));
      assert r[1] == second;
      assert StepInputs(second) == [Text(clip), Text(temp)];
    }
  }

  /** Does the clip's proxy carry the watermark? */
  predicate BurnsWatermark(format: OutputFormat, isMov: bool, env: ClipEnv) {
    && env.watermark.Some?
    && match format
       case QuickTime => !isMov || env.prepassOk
       case Mxf => !isMov
  }

  /** Some run of `r` writes `p`. */
  predicate Writes(r: seq<Step>, p: Path) {
    exists i :: 0 <= i < |r| && StepOutput(r[i]) == p
  }

  /** The last run of `r` writes `p`. */
  predicate LastWrites(r: seq<Step>, p: Path) {
    |r| > 0 && StepOutput(r[|r| - 1]) == p
  }

  /** Some run of `r` lays the watermark over the picture. */
  predicate Overlays(r: seq<Step>) {
    exists i :: 0 <= i < |r| && StepOverlays(r[i])
  }

  /** Every run of `r` that overlays the watermark opens the image `wm` as an input. */
  predicate OverlaysRead(r: seq<Step>, wm: Option<Path>) {
    forall i :: 0 <= i < |r| && StepOverlays(r[i]) ==> wm.Some? && Text(wm.value) in StepInputs(r[i])
  }

  lemma MovClipOutputs(clip: Path, dest: Path, env: ClipEnv)
    ensures var r := Runs(MovClip(clip, dest, env));
            && (Writes(r, ProxyPath(clip, dest, QuickTime)) <==> env.prepassOk)
            && (env.prepassOk ==> LastWrites(r, ProxyPath(clip, dest, QuickTime)))
            && (Overlays(r) <==> env.prepassOk && env.watermark.Some?)
            && OverlaysRead(r, env.watermark)
  {
    MovClipViews(clip, dest, env);
    var r := Runs(MovClip(clip, dest, env));
    if env.prepassOk {
      assert StepOutput(r[0]) == ProxyPath(clip, dest, QuickTime);
    }
  }

  lemma SinglePassClipOutputs(clip: Path, dest: Path, env: ClipEnv)
    ensures var r := Runs(SinglePassClip(clip, dest, env));
            && Writes(r, ProxyPath(clip, dest, QuickTime)) && LastWrites(r, ProxyPath(clip, dest, QuickTime))
            && (Overlays(r) <==> Watermarked(env.watermark, IsMovName(LastComponent(clip))))
            && OverlaysRead(r, env.watermark)
  {
    SinglePassClipViews(clip, dest, env);
    var r := Runs(SinglePassClip(clip, dest, env));
    assert StepOverlays(r[0]) <==> Watermarked(env.watermark, IsMovName(LastComponent(clip)));
  }

  lemma MxfClipOutputs(clip: Path, dest: Path, env: ClipEnv)
    ensures var r := Runs(MxfClip(clip, dest, env));
            && (Writes(r, ProxyPath(clip, dest, Mxf)) <==> env.exit1 == 0)
            && (env.exit1 == 0 ==> LastWrites(r, ProxyPath(clip, dest, Mxf)))
            && (Overlays(r) <==> Watermarked(env.watermark, IsMovName(LastComponent(clip))))
            && OverlaysRead(r, env.watermark)
  {
    ScratchNamesDiffer(LastComponent(clip), Mxf);
    MxfClipRuns(clip, dest, env);
    var r := Runs(MxfClip(clip, dest, env));
    assert StepOutput(r[0]) != ProxyPath(clip, dest, Mxf);
    assert StepOverlays(r[0]) <==> Watermarked(env.watermark, IsMovName(LastComponent(clip)));
    if env.exit1 == 0 {
      assert StepOutput(r[1]) == ProxyPath(clip, dest, Mxf);
      assert !StepOverlays(r[1]);
    }
  }

  /**
    The proxy is written exactly when the clip reaches its last stage, and
    the last ffmpeg run is the one that writes it.
   */
  lemma ProxyWritten(clip: Path, dest: Path, format: OutputFormat, env: ClipEnv)
    ensures var r := Runs(ClipActions(clip, dest, format, env));
            var reaches := ReachesProxy(format, IsMovName(LastComponent(clip)), env);
            && (Writes(r, ProxyPath(clip, dest, format)) <==> reaches)
            && (reaches ==> LastWrites(r, ProxyPath(clip, dest, format)))
  {
    match format
    case QuickTime =>
      if IsMovName(LastComponent(clip)) {
        MovClipOutputs(clip, dest, env);
      } else {
        SinglePassClipOutputs(clip, dest, env);
      }
    case Mxf => MxfClipOutputs(clip, dest, env);
  }

  /**
    Some step overlays the watermark exactly when the image is present and
    the clip is not a MOV, or is a MOV going to QuickTime past its pre-pass;
    so a MOV going to MXF never carries it. A step that overlays it opens
    the image as an input.
   */
  lemma WatermarkBurntIn(clip: Path, dest: Path, format: OutputFormat, env: ClipEnv)
    ensures var r := Runs(ClipActions(clip, dest, format, env));
            && (Overlays(r) <==> BurnsWatermark(format, IsMovName(LastComponent(clip)), env))
            && OverlaysRead(r, env.watermark)
  {
    match format
    case QuickTime =>
      if IsMovName(LastComponent(clip)) {
        MovClipOutputs(clip, dest, env);
      } else {
        SinglePassClipOutputs(clip, dest, env);
      }
    case Mxf => MxfClipOutputs(clip, dest, env);
  }

  /** The LUT setting changes nothing but the QuickTime encode of a MOV clip. */
  lemma LutOnlyMovQuickTime(clip: Path, dest: Path, format: OutputFormat, env: ClipEnv)
    ensures !(format == QuickTime && IsMovName(LastComponent(clip))) ==>
              ClipActions(clip, dest, format, env) == ClipActions(clip, dest, format, env.(lut := None))
  {
  }

  // ---------------------------------------------------------------------
  // The walk over a job's clips
  // ---------------------------------------------------------------------

  /** A trace whose last action is the completion handler. */
  predicate EndsComplete(t: Trace) {
    match t
    case Skip => false
    case Do(a) => a.Complete?
    case Then(_, y) => EndsComplete(y)
  }

  /**
    `processNextFile`: past the last index the batch's completion handler
    runs; otherwise clip `index` is converted, with what the platform
    answers for it, and the walk goes on at `index + 1`.
   */
  function ProcessNextFile(index: nat, clips: seq<Path>, dest: Path, format: OutputFormat, env: nat -> ClipEnv): (r: Trace)
    ensures Decrements(r) == if index < |clips| then |clips| - index else 0
    ensures Completions(r) == 1 && EndsComplete(r)
    decreases |clips| - index
  {
    if index >= |clips| then Do(Complete)
    else Then(ClipActions(clips[index], dest, format, env(index)), ProcessNextFile(index + 1, clips, dest, format, env))
  }

  /**
    One job from `processFolder` to its completion handler, with the format
    read from the selector when the job was started.
   */
  function RunJob(fs: Snapshot, job: Path, selected: int, mkdirOk: bool, env: nat -> ClipEnv): (r: Trace)
    ensures Completions(r) == 1 && EndsComplete(r)
    ensures Decrements(r) == match ProcessFolder(fs, job, mkdirOk)
                             case Abort => 0
                             case Run(clips, _) => |clips|
  {
    match ProcessFolder(fs, job, mkdirOk)
    case Abort => Do(Complete)
    case Run(clips, dest) => ProcessNextFile(0, clips, dest, FormatOf(selected), env)
  }

  /** Traces performed one after the other, then the batch's completion handler. */
  function Sequenced(parts: seq<Trace>): (r: Trace)
    ensures EndsComplete(r)
    decreases |parts|
  {
    if |parts| == 0 then Do(Complete) else Then(parts[0], Sequenced(parts[1..]))
  }

  /** `f(from)`, `f(from + 1)`, ..., `f(end - 1)`. */
  function Indexed<T>(from: nat, end: nat, f: nat -> T): (r: seq<T>)
    ensures |r| == if from < end then end - from else 0
    ensures forall k :: 0 <= k < |r| ==> r[k] == f(from + k)
    decreases end - from
  {
    if from < end then [f(from)] + Indexed(from + 1, end, f) else []
  }

  /** The traces of clips `from`, `from + 1`, ... to the last, each with what the platform answers for it. */
  function ClipParts(from: nat, clips: seq<Path>, dest: Path, format: OutputFormat, env: nat -> ClipEnv): (r: seq<Trace>)
    ensures |r| == if from < |clips| then |clips| - from else 0
    ensures forall k :: 0 <= k < |r| ==> r[k] == ClipActions(clips[from + k], dest, format, env(from + k))
  {
    var f := (k: nat) => if k < |clips| then ClipActions(clips[k], dest, format, env(k)) else Skip;
    var r := Indexed(from, |clips|, f);
    assert forall k :: 0 <= k < |r| ==> r[k] == ClipActions(clips[from + k], dest, format, env(from + k)) by {
      forall k | 0 <= k < |r| ensures r[k] == ClipActions(clips[from + k], dest, format, env(from + k)) {
        assert r[k] == f(from + k);
      }
    }
    r
  }

  /**
    The walk from `index` converts every clip from `index` on exactly once,
    in list order, each with its own platform answers and the job's format,
    and then calls the completion handler.
   */
  lemma {:induction false} WalkInOrder(index: nat, clips: seq<Path>, dest: Path, format: OutputFormat, env: nat -> ClipEnv)
    ensures ProcessNextFile(index, clips, dest, format, env) == Sequenced(ClipParts(index, clips, dest, format, env))
    decreases |clips| - index
  {
    if index < |clips| {
      var f := (k: nat) => if k < |clips| then ClipActions(clips[k], dest, format, env(k)) else Skip;
      assert ClipParts(index, clips, dest, format, env) == [f(index)] + ClipParts(index + 1, clips, dest, format, env);
      WalkInOrder(index + 1, clips, dest, format, env);
    }
  }

  /**
    A job whose listing or proxy folder fails does nothing but call the
    completion handler; otherwise it converts the clips `processFolder`
    found, in order, in the format read from the selector, and then calls
    the completion handler.
   */
  lemma JobConverts(fs: Snapshot, job: Path, selected: int, mkdirOk: bool, env: nat -> ClipEnv)
    ensures var r := RunJob(fs, job, selected, mkdirOk, env);
            match ProcessFolder(fs, job, mkdirOk)
            case Abort => r == Do(Complete)
            case Run(clips, dest) => r == Sequenced(ClipParts(0, clips, dest, FormatOf(selected), env))
  {
    match ProcessFolder(fs, job, mkdirOk)
    case Abort =>
    case Run(clips, dest) => WalkInOrder(0, clips, dest, FormatOf(selected), env);
  }

  /** How many of the clips from `from` on have a stage that fails. */
  function FailedClips(from: nat, clips: seq<Path>, format: OutputFormat, env: nat -> ClipEnv): nat
    decreases |clips| - from
  {
    if from >= |clips| then 0
    else (if ClipFailed(format, IsMovName(LastComponent(clips[from])), env(from)) then 1 else 0)
         + FailedClips(from + 1, clips, format, env)
  }

  /** The failure log of a walk holds one entry per clip with a failed stage. */
  lemma {:induction false} WalkLogsFailures(index: nat, clips: seq<Path>, dest: Path, format: OutputFormat,
                                            env: nat -> ClipEnv)
    ensures |Failures(ProcessNextFile(index, clips, dest, format, env))| == FailedClips(index, clips, format, env)
    decreases |clips| - index
  {
    if index < |clips| {
      var clip := ClipActions(clips[index], dest, format, env(index));
      var rest := ProcessNextFile(index + 1, clips, dest, format, env);
      WalkLogsFailures(index + 1, clips, dest, format, env);
      ClipLogsFailure(clips[index], dest, format, env(index));
      TraceSteps();
      ConcatIsAppend(Failures(clip), Failures(rest));
    }
  }

  /**
    Every clip of the walk that reaches its last stage has its proxy
    written by some ffmpeg run of the walk. The converse does not hold per
    clip: two clips with the same stem share one proxy path.
   */
  lemma WalkWritesProxies(index: nat, k: nat, clips: seq<Path>, dest: Path, format: OutputFormat, env: nat -> ClipEnv)
    requires index <= k < |clips|
    requires ReachesProxy(format, IsMovName(LastComponent(clips[k])), env(k))
    ensures Writes(Runs(ProcessNextFile(index, clips, dest, format, env)), ProxyPath(clips[k], dest, format))
  {
    PartsWriteProxies(index, k, clips, dest, format, env);
    WalkInOrder(index, clips, dest, format, env);
  }

  lemma PartsWriteProxies(index: nat, k: nat, clips: seq<Path>, dest: Path, format: OutputFormat, env: nat -> ClipEnv)
    requires index <= k < |clips|
    requires ReachesProxy(format, IsMovName(LastComponent(clips[k])), env(k))
    ensures Writes(Runs(Sequenced(ClipParts(index, clips, dest, format, env))), ProxyPath(clips[k], dest, format))
  {
    var p := ProxyPath(clips[k], dest, format);
    var parts := ClipParts(index, clips, dest, format, env);
    assert Writes(Runs(parts[k - index]), p) by {
      assert parts[k - index] == ClipActions(clips[k], dest, format, env(k));
      ProxyWritten(clips[k], dest, format, env(k));
    }
    SequencedWrites(parts, k - index, p);
  }

  /** A run of any one part is a run of the parts performed in sequence. */
  lemma {:induction false} SequencedWrites(parts: seq<Trace>, j: nat, p: Path)
    requires j < |parts| && Writes(Runs(parts[j]), p)
    ensures Writes(Runs(Sequenced(parts)), p)
    decreases |parts|
  {
    if j > 0 {
      SequencedWrites(parts[1..], j - 1, p);
    }
    WritesConcat(Runs(parts[0]), Runs(Sequenced(parts[1..])), p);
  }

  /** A run of either part writes `p` in the runs of both. */
  lemma WritesConcat(a: seq<Step>, b: seq<Step>, p: Path)
    requires Writes(a, p) || Writes(b, p)
    ensures Writes(Concat(a, b), p)
  {
    ConcatIsAppend(a, b);
    if Writes(a, p) {
      var i :| 0 <= i < |a| && StepOutput(a[i]) == p;
      assert (a + b)[i] == a[i];
    } else {
      var i :| 0 <= i < |b| && StepOutput(b[i]) == p;
      assert (a + b)[|a| + i] == b[i];
    }
  }

  // ---------------------------------------------------------------------
  // What a job does to the queue
  // ---------------------------------------------------------------------

  /** The queue state after a trace: decrements lower the total, the completion handler finishes the job. */
  function Apply(s: QueueState, t: Trace): (r: QueueState)
    ensures r.total == s.total - Decrements(t)
    ensures Completions(t) == 0 ==> r.queue == s.queue && r.active == s.active && r.processing == s.processing
    decreases t
  {
    match t
    case Skip => s
    case Do(a) => if a.Decrement? then JobQueue.Decrement(s) else if a.Complete? then Finish(s) else s
    case Then(x, y) => Apply(Apply(s, x), y)
  }

  /** A trace without the completion handler only lowers the total, once per decrement. */
  lemma {:induction false} ApplyQuiet(s: QueueState, t: Trace)
    requires Completions(t) == 0
    ensures Apply(s, t) == s.(total := s.total - Decrements(t))
    decreases t
  {
    match t
    case Skip =>
    case Do(a) =>
    case Then(x, y) =>
      ApplyQuiet(s, x);
      ApplyQuiet(Apply(s, x), y);
  }

  /** The walk from `index` lowers the total once per remaining clip, then finishes the job. */
  lemma {:induction false} WalkApply(s: QueueState, index: nat, clips: seq<Path>, dest: Path, format: OutputFormat,
                                     env: nat -> ClipEnv)
    ensures Apply(s, ProcessNextFile(index, clips, dest, format, env))
              == Finish(s.(total := s.total - (if index < |clips| then |clips| - index else 0)))
    decreases |clips| - index
  {
    if index < |clips| {
      var clip := ClipActions(clips[index], dest, format, env(index));
      ApplyQuiet(s, clip);
      WalkApply(Apply(s, clip), index + 1, clips, dest, format, env);
    }
  }

  /**
    A job that runs lowers the total by the clips its enqueue counted, and
    one that aborts leaves them counted; either way the job leaves the
    queue, the next job starts, and the queue stays valid.
   */
  lemma JobBalance(s: QueueState, fs: Snapshot, selected: int, mkdirOk: bool, env: nat -> ClipEnv)
    requires Valid(s) && s.processing
    ensures var job := s.active.value;
            var r := Apply(s, RunJob(fs, job, selected, mkdirOk, env));
            && r.total == s.total - (if ProcessFolder(fs, job, mkdirOk).Run? then ClipEstimate(fs, job) else 0)
            && Jobs(r) == Jobs(s)[1..]
            && Valid(r)
  {
    var job := s.active.value;
    PlanMatchesEstimate(fs, job, mkdirOk);
    match ProcessFolder(fs, job, mkdirOk)
    case Abort =>
      FinishValid(s);
      FinishAdvances(s);
    case Run(clips, dest) =>
      var s' := s.(total := s.total - |clips|);
      WalkApply(s, 0, clips, dest, FormatOf(selected), env);
      FinishValid(s');
      FinishAdvances(s');
  }

  /** Dropping one item on an idle app makes it the active job at once, with its clips counted. */
  lemma EnqueueOnIdle(fs: Snapshot, url: Path)
    ensures Enqueue(Initial, fs, url) == QueueState([], Some(Standardize(url)), true, ClipEstimate(fs, Standardize(url)))
  {
    assert !IsDuplicate(Initial, url);
    StandardizeIdempotent(url);
    assert Lookup(fs, Standardize(url)) == Lookup(fs, url);
  }

  /**
    Once the job of an item dropped on an idle app has run, with its proxy
    folder created, the app is idle again with the total back at zero.
   */
  lemma SingleJobDrains(fs: Snapshot, url: Path, selected: int, env: nat -> ClipEnv)
    ensures var s := Enqueue(Initial, fs, url);
            Apply(s, RunJob(fs, Standardize(url), selected, true, env)) == Initial
  {
    EnqueueOnIdle(fs, url);
    var s := Enqueue(Initial, fs, url);
    PlanMatchesEstimate(fs, Standardize(url), true);
    match ProcessFolder(fs, Standardize(url), true)
    case Abort =>
    case Run(clips, dest) =>
      WalkApply(s, 0, clips, dest, FormatOf(selected), env);
  }

  // ---------------------------------------------------------------------
  // What a step's arguments say
  // ---------------------------------------------------------------------

  /**
    An argument list, as the option reader takes it apart, writes the step's
    `StepOutput`, opens its `StepInputs` in order, and carries a filter
    graph exactly when the step overlays the watermark. Its inputs come
    first, so every other option applies to the output.
   */
  predicate Agrees(argv: seq<string>, step: Step) {
    && OutputOf(argv) == Some(Text(StepOutput(step)))
    && InputsFirstIn(argv)
    && ValuesIn(argv, Input) == StepInputs(step)
    && (ValuesIn(argv, FilterComplex) != [] <==> StepOverlays(step))
  }

  lemma SinglePassAgrees(src: Path, watermark: Option<Path>, isMov: bool, out: Path)
    ensures Agrees(SinglePassArgs(src, watermark, isMov, out), SinglePass(src, watermark, isMov, out))
  {
  }

  lemma MovStepAgrees(eightBit: Path, watermark: Option<Path>, src: Path, lut: Option<Path>, out: Path)
    ensures Agrees(MovStepArgs(eightBit, watermark, src, lut, out), MovStep(eightBit, watermark, src, lut, out))
  {
  }

  lemma MxfFirstAgrees(src: Path, watermark: Option<Path>, isMov: bool, temp: Path)
    ensures Agrees(MxfFirstArgs(src, watermark, isMov, temp), MxfFirst(src, watermark, isMov, temp))
  {
  }

  lemma MxfSecondAgrees(src: Path, temp: Path, out: Path)
    ensures Agrees(MxfSecondArgs(src, temp, out), MxfSecond(src, temp, out))
  {
  }

  /** Every step's argument list agrees with the step. */
  lemma ArgvAgrees(step: Step)
    ensures Agrees(Argv(step), step)
  {
    match step
    case SinglePass(src, watermark, isMov, out) => SinglePassAgrees(src, watermark, isMov, out);
    case MovStep(eightBit, watermark, src, lut, out) => MovStepAgrees(eightBit, watermark, src, lut, out);
    case MxfFirst(src, watermark, isMov, temp) => MxfFirstAgrees(src, watermark, isMov, temp);
    case MxfSecond(src, temp, out) => MxfSecondAgrees(src, temp, out);
  }
}

=== FILE: commandline.dfy ===
/**
  An encoder invocation as an ordered argument list. The pipeline builds its
  lists as flat `[String]`; here a list is also given structure (options with
  values, value-less switches, one output path last) together with a reader
  that takes a flat list apart into its options and its output. The reader
  collects every option regardless of where it stands; ffmpeg binds an
  option to the file it precedes, and `Bind` models that. For a list whose
  inputs all come first the two readings agree (`BindInputsFirst`), and the
  builders' contracts state that their lists have that layout.
 */
module CommandLine {
  import opened Wrappers

  /** The ffmpeg options the pipeline uses. */
  datatype Flag =
    | Input | FilterComplex | VideoFilter | Map | MapMetadata | Format
    | VideoCodec | AudioCodec | DataCodec | SubtitleCodec
    | Preset | Crf | PixelFormat | VideoBitrate | MaxRate | BufSize
    | NoSubtitles | NoAudio

  function Spelling(f: Flag): (r: string)
    ensures |r| > 1 && r[0] == '-'
  {
    match f
    case Input => "-i"
    case FilterComplex => "-filter_complex"
    case VideoFilter => "-vf"
    case Map => "-map"
    case MapMetadata => "-map_metadata"
    case Format => "-f"
    case VideoCodec => "-c:v"
    case AudioCodec => "-c:a"
    case DataCodec => "-c:d"
    case SubtitleCodec => "-c:s"
    case Preset => "-preset"
    case Crf => "-crf"
    case PixelFormat => "-pix_fmt"
    case VideoBitrate => "-b:v"
    case MaxRate => "-maxrate"
    case BufSize => "-bufsize"
    case NoSubtitles => "-sn"
    case NoAudio => "-an"
  }

  /** `-sn` and `-an` stand alone; every other option takes the next token as its value. */
  predicate TakesValue(f: Flag) {
    f != NoSubtitles && f != NoAudio
  }

  /** The reader's option table: which option a token names, if any. */
  function FlagNamed(t: string): (r: Option<Flag>)
    ensures r.Some? ==> Spelling(r.value) == t
  {
    if t == "-i" then Some(Input)
    else if t == "-filter_complex" then Some(FilterComplex)
    else if t == "-vf" then Some(VideoFilter)
    else if t == "-map" then Some(Map)
    else if t == "-map_metadata" then Some(MapMetadata)
    else if t == "-f" then Some(Format)
    else if t == "-c:v" then Some(VideoCodec)
    else if t == "-c:a" then Some(AudioCodec)
    else if t == "-c:d" then Some(DataCodec)
    else if t == "-c:s" then Some(SubtitleCodec)
    else if t == "-preset" then Some(Preset)
    else if t == "-crf" then Some(Crf)
    else if t == "-pix_fmt" then Some(PixelFormat)
    else if t == "-b:v" then Some(VideoBitrate)
    else if t == "-maxrate" then Some(MaxRate)
    else if t == "-bufsize" then Some(BufSize)
    else if t == "-sn" then Some(NoSubtitles)
    else if t == "-an" then Some(NoAudio)
    else None
  }

  /** Every option's spelling names that option: no two options are spelled alike. */
  lemma SpellingNamesFlag(f: Flag)
    ensures FlagNamed(Spelling(f)) == Some(f)
  {
  }

  datatype Arg = Opt(flag: Flag, value: string) | Switch(flag: Flag)

  /** Options, in order, followed by the output path. */
  datatype Command = Command(args: seq<Arg>, output: string)

  predicate IsFlag(t: string) {
    |t| > 0 && t[0] == '-'
  }

  predicate WellFormedArg(a: Arg) {
    match a
    case Opt(f, _) => TakesValue(f)
    case Switch(f) => !TakesValue(f)
  }

  predicate AllWellFormed(args: seq<Arg>) {
    forall i :: 0 <= i < |args| ==> WellFormedArg(args[i])
  }

  predicate WellFormed(c: Command) {
    AllWellFormed(c.args) && !IsFlag(c.output)
  }

  function Flatten(args: seq<Arg>): (r: seq<string>)
    ensures |r| >= |args|
  {
    if |args| == 0 then []
    else
      (match args[0]
       case Opt(f, v) => [Spelling(f), v]
       case Switch(f) => [Spelling(f)]) + Flatten(args[1..])
  }

  /** The flat argument list handed to the process. */
  function Tokens(c: Command): (r: seq<string>)
    ensures |r| > 0 && r[|r| - 1] == c.output
  {
    Flatten(c.args) + [c.output]
  }

  /**
    The option reader: a switch stands alone, any other option takes the
    next token as its value, an unknown option is refused, and the final
    token, which must not look like an option, is the output.
   */
  function Read(t: seq<string>): (r: Option<Command>)
    decreases |t|
  {
    if |t| == 0 then None
    else if |t| == 1 then (if IsFlag(t[0]) then None else Some(Command([], t[0])))
    else
      match FlagNamed(t[0])
      case None => None
      case Some(f) =>
        if !TakesValue(f) then
          match Read(t[1..])
          case Some(c) => Some(Command([Switch(f)] + c.args, c.output))
          case None => None
        else
          match Read(t[2..])
          case Some(c) => Some(Command([Opt(f, t[1])] + c.args, c.output))
          case None => None
  }

  /** Reading back a well-formed command's tokens gives the command. */
  lemma {:induction false} ReadTokens(c: Command)
    requires WellFormed(c)
    ensures Read(Tokens(c)) == Some(c)
    decreases |c.args|
  {
    var t := Tokens(c);
    if |c.args| > 0 {
      var rest := Command(c.args[1..], c.output);
      assert WellFormed(rest) by {
        forall i | 0 <= i < |rest.args| ensures WellFormedArg(rest.args[i]) {
          assert rest.args[i] == c.args[i + 1];
        }
      }
      ReadTokens(rest);
      assert WellFormedArg(c.args[0]);
      assert c.args == [c.args[0]] + rest.args;
      SpellingNamesFlag(c.args[0].flag);
      match c.args[0]
      case Opt(f, v) =>
        assert t == [Spelling(f), v] + Tokens(rest);
        assert t[2..] == Tokens(rest);
      case Switch(f) =>
        assert t == [Spelling(f)] + Tokens(rest);
        assert t[1..] == Tokens(rest);
    }
  }

  /** A token the reader takes for an option is that option's spelling. */
  lemma NamedFlagSpelling(t: string)
    requires FlagNamed(t).Some?
    ensures Spelling(FlagNamed(t).value) == t
  {
  }

  /** Putting a well-formed option in front of a well-formed command. */
  lemma {:induction false} ConsArg(a: Arg, rest: Command)
    requires WellFormedArg(a) && WellFormed(rest)
    ensures var c := Command([a] + rest.args, rest.output);
            && WellFormed(c)
            && Tokens(c) == (match a case Opt(f, v) => [Spelling(f), v] case Switch(f) => [Spelling(f)]) + Tokens(rest)
  {
    var args := [a] + rest.args;
    assert args[1..] == rest.args;
    assert forall i :: 1 <= i < |args| ==> args[i] == rest.args[i - 1];
  }

  /** Whatever the reader accepts is a well-formed command whose tokens are the input. */
  lemma {:induction false} TokensRead(t: seq<string>)
    requires Read(t).Some?
    ensures WellFormed(Read(t).value)
    ensures Tokens(Read(t).value) == t
    decreases |t|
  {
    if |t| > 1 {
      var f := FlagNamed(t[0]).value;
      NamedFlagSpelling(t[0]);
      if !TakesValue(f) {
        TokensRead(t[1..]);
        ConsArg(Switch(f), Read(t[1..]).value);
        assert t == [t[0]] + t[1..];
      } else {
        TokensRead(t[2..]);
        ConsArg(Opt(f, t[1]), Read(t[2..]).value);
        assert t == [t[0], t[1]] + t[2..];
      }
    }
  }

  // ---------------------------------------------------------------------
  // Queries on a read command
  // ---------------------------------------------------------------------

  /** The values given to option `f`, in order. */
  function Values(args: seq<Arg>, f: Flag): seq<string> {
    if |args| == 0 then []
    else (if args[0].Opt? && args[0].flag == f then [args[0].value] else []) + Values(args[1..], f)
  }

  lemma {:induction false} ValuesAppend(a: seq<Arg>, b: seq<Arg>, f: Flag)
    ensures Values(a + b, f) == Values(a, f) + Values(b, f)
    decreases |a|
  {
    if |a| == 0 {
      assert a + b == b;
    } else {
      assert (a + b)[0] == a[0];
      assert (a + b)[1..] == a[1..] + b;
      ValuesAppend(a[1..], b, f);
    }
  }

  /** The value-less switches, in order. */
  function SwitchesOf(args: seq<Arg>): seq<Flag> {
    if |args| == 0 then []
    else (if args[0].Switch? then [args[0].flag] else []) + SwitchesOf(args[1..])
  }

  lemma {:induction false} SwitchesAppend(a: seq<Arg>, b: seq<Arg>)
    ensures SwitchesOf(a + b) == SwitchesOf(a) + SwitchesOf(b)
    decreases |a|
  {
    if |a| == 0 {
      assert a + b == b;
    } else {
      assert (a + b)[0] == a[0];
      assert (a + b)[1..] == a[1..] + b;
      SwitchesAppend(a[1..], b);
    }
  }

  /** The values the reader finds for option `f` in a flat list; none when it cannot read the list. */
  function ValuesIn(t: seq<string>, f: Flag): seq<string> {
    match Read(t)
    case Some(c) => Values(c.args, f)
    case None => []
  }

  /** The switches the reader finds in a flat list. */
  function SwitchesIn(t: seq<string>): seq<Flag> {
    match Read(t)
    case Some(c) => SwitchesOf(c.args)
    case None => []
  }

  /** What the reader finds in a well-formed command's tokens is the command's own options, switches and output. */
  lemma CommandQueries(c: Command)
    requires WellFormed(c)
    ensures forall f :: ValuesIn(Tokens(c), f) == Values(c.args, f)
    ensures SwitchesIn(Tokens(c)) == SwitchesOf(c.args)
    ensures OutputOf(Tokens(c)) == Some(c.output)
  {
    ReadTokens(c);
  }

  /** The output the reader finds in a flat list. */
  function OutputOf(t: seq<string>): Option<string> {
    match Read(t)
    case Some(c) => Some(c.output)
    case None => None
  }

  // ---------------------------------------------------------------------
  // Which file an option belongs to
  // ---------------------------------------------------------------------

  /** The options and switches present in an argument list. */
  function FlagsOf(args: seq<Arg>): set<Flag> {
    set i | 0 <= i < |args| :: args[i].flag
  }

  /** The options and switches the reader finds in a flat list. */
  function FlagsIn(t: seq<string>): set<Flag> {
    match Read(t)
    case Some(c) => FlagsOf(c.args)
    case None => {}
  }

  /** The first and the remaining options of a list between them hold all its options. */
  lemma FlagsOfTail(args: seq<Arg>)
    requires |args| > 0
    ensures FlagsOf(args) == {args[0].flag} + FlagsOf(args[1..])
  {
    forall x | x in FlagsOf(args[1..]) ensures x in FlagsOf(args) {
      var i :| 0 <= i < |args[1..]| && args[1..][i].flag == x;
      assert args[i + 1].flag == x;
    }
    forall x | x in FlagsOf(args) ensures x == args[0].flag || x in FlagsOf(args[1..]) {
      var i :| 0 <= i < |args| && args[i].flag == x;
      if i > 0 {
        assert args[1..][i - 1].flag == x;
      }
    }
  }

  /** An option that is not present has no values. */
  lemma {:induction false} NoValuesOutside(args: seq<Arg>, f: Flag)
    requires f !in FlagsOf(args)
    ensures Values(args, f) == []
    decreases |args|
  {
    if |args| > 0 {
      FlagsOfTail(args);
      NoValuesOutside(args[1..], f);
    }
  }

  /** An input file with the options written in front of its `-i`. */
  datatype Source = Source(options: seq<Arg>, path: string)

  predicate IsInput(a: Arg) {
    a.Opt? && a.flag == Input
  }

  /**
    ffmpeg's binding of options to files: the options written before an
    `-i` (collected in `pending`) belong to that input, and those after the
    last `-i` to the output. A global option such as `-filter_complex` is
    kept with the file it is written before, which is where it stands in
    the list.
   */
  function Bind(args: seq<Arg>, pending: seq<Arg>): (r: (seq<Source>, seq<Arg>))
    decreases |args|
  {
    if |args| == 0 then ([], pending)
    else if IsInput(args[0]) then
      var rest := Bind(args[1..], []);
      ([Source(pending, args[0].value)] + rest.0, rest.1)
    else Bind(args[1..], pending + [args[0]])
  }

  /** Every `-i` comes before every other option. */
  predicate InputsFirst(args: seq<Arg>) {
    forall i, j :: 0 <= i < j < |args| && IsInput(args[j]) ==> IsInput(args[i])
  }

  /** The reader accepts the flat list, and its inputs come first. */
  predicate InputsFirstIn(t: seq<string>) {
    match Read(t)
    case Some(c) => InputsFirst(c.args)
    case None => false
  }

  predicate AllInputs(args: seq<Arg>) {
    forall i :: 0 <= i < |args| ==> IsInput(args[i])
  }

  predicate NoInputs(args: seq<Arg>) {
    forall i :: 0 <= i < |args| ==> !IsInput(args[i])
  }

  /** Two lists keep their inputs first when joined if the second has none or the first is only inputs. */
  lemma InputsFirstAppend(a: seq<Arg>, b: seq<Arg>)
    requires InputsFirst(a) && InputsFirst(b)
    requires NoInputs(b) || AllInputs(a)
    ensures InputsFirst(a + b)
  {
    var c := a + b;
    forall i, j | 0 <= i < j < |c| && IsInput(c[j]) ensures IsInput(c[i]) {
      if j < |a| {
        assert c[j] == a[j] && c[i] == a[i];
      } else if i >= |a| {
        assert c[j] == b[j - |a|] && c[i] == b[i - |a|];
      } else {
        assert c[j] == b[j - |a|] && c[i] == a[i];
      }
    }
  }

  lemma FlagsOfAppend(a: seq<Arg>, b: seq<Arg>)
    ensures FlagsOf(a + b) == FlagsOf(a) + FlagsOf(b)
  {
    var c := a + b;
    forall x | x in FlagsOf(c) ensures x in FlagsOf(a) || x in FlagsOf(b) {
      var i :| 0 <= i < |c| && c[i].flag == x;
      if i < |a| {
        assert a[i] == c[i];
      } else {
        assert b[i - |a|] == c[i];
      }
    }
    forall x | x in FlagsOf(a) ensures x in FlagsOf(c) {
      var i :| 0 <= i < |a| && a[i].flag == x;
      assert c[i] == a[i];
    }
    forall x | x in FlagsOf(b) ensures x in FlagsOf(c) {
      var i :| 0 <= i < |b| && b[i].flag == x;
      assert c[|a| + i] == b[i];
    }
  }

  /** A list with no `-i` binds everything to the output. */
  lemma {:induction false} BindWithoutInputs(args: seq<Arg>, pending: seq<Arg>)
    requires forall i :: 0 <= i < |args| ==> !IsInput(args[i])
    ensures Bind(args, pending) == ([], pending + args)
    decreases |args|
  {
    if |args| > 0 {
      assert !IsInput(args[0]);
      BindWithoutInputs(args[1..], pending + [args[0]]);
      assert pending + [args[0]] + args[1..] == pending + args;
    } else {
      assert pending + args == pending;
    }
  }

  /**
    When the inputs come first, no input carries an option, the inputs are
    the `-i` values in order, and the output gets every other option with
    its values in order: reading each option as the output's, as `ValuesIn`
    does, is then exactly how ffmpeg binds it.
   */
  lemma {:induction false} BindInputsFirst(args: seq<Arg>)
    requires InputsFirst(args)
    ensures var b := Bind(args, []);
            && |b.0| == |Values(args, Input)|
            && (forall k :: 0 <= k < |b.0| ==> b.0[k].options == [] && b.0[k].path == Values(args, Input)[k])
            && (forall f :: f != Input ==> Values(b.1, f) == Values(args, f))
            && (forall i :: 0 <= i < |b.1| ==> !IsInput(b.1[i]))
    decreases |args|
  {
    if |args| > 0 {
      var tail := args[1..];
      assert InputsFirst(tail) by {
        forall i, j | 0 <= i < j < |tail| && IsInput(tail[j]) ensures IsInput(tail[i]) {
          assert IsInput(args[j + 1]);
        }
      }
      if IsInput(args[0]) {
        BindInputsFirst(tail);
      } else {
        assert forall i :: 0 <= i < |args| ==> !IsInput(args[i]);
        BindWithoutInputs(args, []);
        assert [] + args == args;
        NoInputValues(args);
      }
    }
  }

  /** A list with no `-i` has no input values. */
  lemma {:induction false} NoInputValues(args: seq<Arg>)
    requires forall i :: 0 <= i < |args| ==> !IsInput(args[i])
    ensures Values(args, Input) == []
    decreases |args|
  {
    if |args| > 0 {
      assert !IsInput(args[0]);
      NoInputValues(args[1..]);
    }
  }

  // ---------------------------------------------------------------------
  // Lists built from groups
  // ---------------------------------------------------------------------

  /**
    An argument list as the pipeline assembles it: single arguments joined
    group after group. `Flat` gives the list itself; the queries below read a
    group directly, one join at a time.
   */
  datatype Group = Empty | Single(arg: Arg) | Join(first: Group, second: Group)

  function Flat(g: Group): (r: seq<Arg>) {
    match g
    case Empty => []
    case Single(a) => [a]
    case Join(x, y) => Flat(x) + Flat(y)
  }

  /** Concatenation that drops an empty side outright, so that query results stay small terms. */
  function Concat<T>(a: seq<T>, b: seq<T>): seq<T> {
    if |a| == 0 then b else if |b| == 0 then a else a + b
  }

  lemma ConcatIsAppend<T>(a: seq<T>, b: seq<T>)
    ensures Concat(a, b) == a + b
  {
    if |a| == 0 {
      assert a + b == b;
    } else if |b| == 0 {
      assert a + b == a;
    }
  }

  function GroupValues(g: Group, f: Flag): seq<string> {
    match g
    case Empty => []
    case Single(a) => if a.Opt? && a.flag == f then [a.value] else []
    case Join(x, y) => Concat(GroupValues(x, f), GroupValues(y, f))
  }

  function GroupSwitches(g: Group): seq<Flag> {
    match g
    case Empty => []
    case Single(a) => if a.Switch? then [a.flag] else []
    case Join(x, y) => Concat(GroupSwitches(x), GroupSwitches(y))
  }

  predicate GroupWellFormed(g: Group) {
    match g
    case Empty => true
    case Single(a) => WellFormedArg(a)
    case Join(x, y) => GroupWellFormed(x) && GroupWellFormed(y)
  }

  lemma AllWellFormedAppend(a: seq<Arg>, b: seq<Arg>)
    ensures AllWellFormed(a + b) <==> AllWellFormed(a) && AllWellFormed(b)
  {
    if AllWellFormed(a + b) {
      forall i | 0 <= i < |a| ensures WellFormedArg(a[i]) {
        assert (a + b)[i] == a[i];
      }
      forall i | 0 <= i < |b| ensures WellFormedArg(b[i]) {
        assert (a + b)[|a| + i] == b[i];
      }
    }
  }

  /** Reading a group directly agrees with reading its flat list. */
  lemma {:induction false} FlatQueries(g: Group)
    ensures forall f :: Values(Flat(g), f) == GroupValues(g, f)
    ensures SwitchesOf(Flat(g)) == GroupSwitches(g)
    ensures AllWellFormed(Flat(g)) <==> GroupWellFormed(g)
  {
    match g
    case Empty =>
    case Single(a) =>
      assert [a][1..] == [];
    case Join(x, y) =>
      FlatQueries(x);
      FlatQueries(y);
      forall f ensures Values(Flat(g), f) == GroupValues(g, f) {
        ValuesAppend(Flat(x), Flat(y), f);
        ConcatIsAppend(GroupValues(x, f), GroupValues(y, f));
      }
      SwitchesAppend(Flat(x), Flat(y));
      ConcatIsAppend(GroupSwitches(x), GroupSwitches(y));
      AllWellFormedAppend(Flat(x), Flat(y));
  }

  /** Every option and switch of a group is one of `allowed`. */
  predicate GroupOnly(g: Group, allowed: set<Flag>) {
    match g
    case Empty => true
    case Single(a) => a.flag in allowed
    case Join(x, y) => GroupOnly(x, allowed) && GroupOnly(y, allowed)
  }

  predicate GroupNoInputs(g: Group) {
    match g
    case Empty => true
    case Single(a) => !IsInput(a)
    case Join(x, y) => GroupNoInputs(x) && GroupNoInputs(y)
  }

  predicate GroupAllInputs(g: Group) {
    match g
    case Empty => true
    case Single(a) => IsInput(a)
    case Join(x, y) => GroupAllInputs(x) && GroupAllInputs(y)
  }

  /** At every join, the second part has no `-i` or the first part has nothing else. */
  predicate GroupInputsFirst(g: Group) {
    match g
    case Empty => true
    case Single(_) => true
    case Join(x, y) => GroupInputsFirst(x) && GroupInputsFirst(y) && (GroupNoInputs(y) || GroupAllInputs(x))
  }

  /** The group-level layout predicates hold of the flat list. */
  lemma {:induction false} FlatLayout(g: Group)
    ensures forall allowed :: GroupOnly(g, allowed) ==> FlagsOf(Flat(g)) <= allowed
    ensures GroupNoInputs(g) ==> NoInputs(Flat(g))
    ensures GroupAllInputs(g) ==> AllInputs(Flat(g))
    ensures GroupInputsFirst(g) ==> InputsFirst(Flat(g))
  {
    match g
    case Empty =>
    case Single(a) =>
      assert FlagsOf([a]) == {a.flag} by {
        assert [a][0].flag == a.flag;
      }
    case Join(x, y) =>
      FlatLayout(x);
      FlatLayout(y);
      FlagsOfAppend(Flat(x), Flat(y));
      var c := Flat(x) + Flat(y);
      if GroupNoInputs(g) {
        assert forall i :: 0 <= i < |c| ==> c[i] == if i < |Flat(x)| then Flat(x)[i] else Flat(y)[i - |Flat(x)|];
      }
      if GroupAllInputs(g) {
        assert forall i :: 0 <= i < |c| ==> c[i] == if i < |Flat(x)| then Flat(x)[i] else Flat(y)[i - |Flat(x)|];
      }
      if GroupInputsFirst(g) {
        InputsFirstAppend(Flat(x), Flat(y));
      }
  }

  /** One step of each layout query, for every join and single argument at once. */
  lemma LayoutSteps()
    ensures forall x, y, allowed {:trigger GroupOnly(Join(x, y), allowed)} ::
      GroupOnly(Join(x, y), allowed) <==> GroupOnly(x, allowed) && GroupOnly(y, allowed)
    ensures forall x, y {:trigger GroupNoInputs(Join(x, y))} ::
      GroupNoInputs(Join(x, y)) <==> GroupNoInputs(x) && GroupNoInputs(y)
    ensures forall x, y {:trigger GroupAllInputs(Join(x, y))} ::
      GroupAllInputs(Join(x, y)) <==> GroupAllInputs(x) && GroupAllInputs(y)
    ensures forall x, y {:trigger GroupInputsFirst(Join(x, y))} ::
      GroupInputsFirst(Join(x, y)) <==> GroupInputsFirst(x) && GroupInputsFirst(y) && (GroupNoInputs(y) || GroupAllInputs(x))
  {
  }

  /** What the reader finds in a group's tokens: only the group's options, with the inputs first. */
  lemma CommandLayout(g: Group, output: string, allowed: set<Flag>)
    requires GroupWellFormed(g) && !IsFlag(output)
    requires GroupOnly(g, allowed) && GroupInputsFirst(g)
    ensures FlagsIn(Tokens(Command(Flat(g), output))) <= allowed
    ensures InputsFirstIn(Tokens(Command(Flat(g), output)))
  {
    FlatQueries(g);
    FlatLayout(g);
    ReadTokens(Command(Flat(g), output));
  }

  /** One step of each group query, for every join and single argument at once. */
  lemma GroupSteps()
    ensures forall x, y, f {:trigger GroupValues(Join(x, y), f)} ::
      GroupValues(Join(x, y), f) == Concat(GroupValues(x, f), GroupValues(y, f))
    ensures forall a, f {:trigger GroupValues(Single(a), f)} ::
      GroupValues(Single(a), f) == if a.Opt? && a.flag == f then [a.value] else []
    ensures forall x, y {:trigger GroupSwitches(Join(x, y))} ::
      GroupSwitches(Join(x, y)) == Concat(GroupSwitches(x), GroupSwitches(y))
    ensures forall x, y {:trigger GroupWellFormed(Join(x, y))} ::
      GroupWellFormed(Join(x, y)) <==> GroupWellFormed(x) && GroupWellFormed(y)
  {
  }
}

=== FILE: encoder.dfy ===
/**
  The ffmpeg argument lists of the conversion pipeline: the QuickTime single
  pass, the second step after the AVFoundation pre-pass for MOV sources, and
  the two steps of MXF output. Each list is a `Group` assembled in the order
  the pipeline appends its pieces; each builder's contract says what ffmpeg
  reads back from the flat tokens.

  Filter-graph texts enter the group builders as parameters, so that the
  proofs about a list never spell a graph out; the argument functions pass
  the texts `FilterGraph` defines.
 */
module Encoder {
  import opened Wrappers
  import opened Paths
  import opened CommandLine
  import opened FilterGraph

  // ---------------------------------------------------------------------
  // Shared groups
  // ---------------------------------------------------------------------

  /** H.264 at preset `fast`, quality 18. */
  const X264: Group :=
    Join(Join(Single(Opt(VideoCodec, "libx264")), Single(Opt(Preset, "fast"))), Single(Opt(Crf, "18")))

  /** The QuickTime video settings: H.264 plus 8-bit 4:2:0. */
  const QuickTimeCodec: Group := Join(X264, Single(Opt(PixelFormat, "yuv420p")))

  /** The MXF video settings: MPEG-2 at a constant 45 Mbit/s. */
  const MpegCodec: Group :=
    Join(Join(Join(Single(Opt(VideoCodec, "mpeg2video")), Single(Opt(VideoBitrate, "45M"))),
              Single(Opt(MaxRate, "45M"))),
         Single(Opt(BufSize, "90M")))

  /** The single-pass and MXF first-step lists burn in the watermark only for sources that are not MOV. */
  predicate Watermarked(watermark: Option<Path>, isMov: bool) {
    watermark.Some? && !isMov
  }

  /** The watermark image as a further input and the overlay graph, or nothing. */
  function WatermarkArgs(watermark: Option<Path>, isMov: bool, overlay: string): Group {
    if Watermarked(watermark, isMov) then
      Join(Single(Opt(Input, Text(watermark.value))), Single(Opt(FilterComplex, overlay)))
    else Empty
  }

  /** The video stream to encode: the overlay's output, or the first input's video. */
  function VideoMap(watermark: Option<Path>, isMov: bool): Group {
    Single(Opt(Map, if Watermarked(watermark, isMov) then "[v]" else "0:v"))
  }

  lemma WatermarkArgsValues(watermark: Option<Path>, isMov: bool, overlay: string, f: Flag)
    ensures GroupValues(WatermarkArgs(watermark, isMov, overlay), f)
         == if Watermarked(watermark, isMov) && f == Input then [Text(watermark.value)]
            else if Watermarked(watermark, isMov) && f == FilterComplex then [overlay]
            else []
  {
  }

  // ---------------------------------------------------------------------
  // QuickTime, single pass (sources that are not MOV)
  // ---------------------------------------------------------------------

  function SinglePassList(src: Path, watermark: Option<Path>, isMov: bool, overlay: string): Group {
    Join(
      Join(Join(Single(Opt(Input, Text(src))), WatermarkArgs(watermark, isMov, overlay)),
           VideoMap(watermark, isMov)),
      Join(Join(QuickTimeCodec, Single(Opt(Map, "0:a?"))),
           Join(Single(Opt(AudioCodec, "copy")), Single(Switch(NoSubtitles)))))
  }

  lemma SinglePassParts(src: Path, watermark: Option<Path>, isMov: bool, overlay: string, f: Flag)
    ensures GroupValues(SinglePassList(src, watermark, isMov, overlay), f)
         == Concat(
              Concat(Concat(GroupValues(Single(Opt(Input, Text(src))), f),
                            GroupValues(WatermarkArgs(watermark, isMov, overlay), f)),
                     GroupValues(VideoMap(watermark, isMov), f)),
              Concat(Concat(GroupValues(QuickTimeCodec, f), GroupValues(Single(Opt(Map, "0:a?")), f)),
                     GroupValues(Single(Opt(AudioCodec, "copy")), f)))
  {
    GroupSteps();
  }

  lemma SinglePassInputs(src: Path, watermark: Option<Path>, isMov: bool, overlay: string)
    ensures GroupValues(SinglePassList(src, watermark, isMov, overlay), Input)
         == [Text(src)] + (if Watermarked(watermark, isMov) then [Text(watermark.value)] else [])
    ensures GroupValues(SinglePassList(src, watermark, isMov, overlay), FilterComplex)
         == if Watermarked(watermark, isMov) then [overlay] else []
  {
    SinglePassParts(src, watermark, isMov, overlay, Input);
    SinglePassParts(src, watermark, isMov, overlay, FilterComplex);
    WatermarkArgsValues(watermark, isMov, overlay, Input);
    WatermarkArgsValues(watermark, isMov, overlay, FilterComplex);
    GroupSteps();
  }

  lemma SinglePassMaps(src: Path, watermark: Option<Path>, isMov: bool, overlay: string)
    ensures GroupValues(SinglePassList(src, watermark, isMov, overlay), Map)
         == [if Watermarked(watermark, isMov) then "[v]" else "0:v", "0:a?"]
  {
    SinglePassParts(src, watermark, isMov, overlay, Map);
    WatermarkArgsValues(watermark, isMov, overlay, Map);
    GroupSteps();
  }

  lemma SinglePassSettings(src: Path, watermark: Option<Path>, isMov: bool, overlay: string)
    ensures GroupValues(SinglePassList(src, watermark, isMov, overlay), VideoCodec) == ["libx264"]
    ensures GroupValues(SinglePassList(src, watermark, isMov, overlay), PixelFormat) == ["yuv420p"]
    ensures GroupValues(SinglePassList(src, watermark, isMov, overlay), AudioCodec) == ["copy"]
  {
    SinglePassParts(src, watermark, isMov, overlay, VideoCodec);
    SinglePassParts(src, watermark, isMov, overlay, PixelFormat);
    SinglePassParts(src, watermark, isMov, overlay, AudioCodec);
    WatermarkArgsValues(watermark, isMov, overlay, VideoCodec);
    WatermarkArgsValues(watermark, isMov, overlay, PixelFormat);
    WatermarkArgsValues(watermark, isMov, overlay, AudioCodec);
    GroupSteps();
  }

  lemma SinglePassQuality(src: Path, watermark: Option<Path>, isMov: bool, overlay: string)
    ensures GroupValues(SinglePassList(src, watermark, isMov, overlay), Preset) == ["fast"]
    ensures GroupValues(SinglePassList(src, watermark, isMov, overlay), Crf) == ["18"]
  {
    SinglePassParts(src, watermark, isMov, overlay, Preset);
    SinglePassParts(src, watermark, isMov, overlay, Crf);
    WatermarkArgsValues(watermark, isMov, overlay, Preset);
    WatermarkArgsValues(watermark, isMov, overlay, Crf);
    GroupSteps();
  }

  lemma SinglePassSwitches(src: Path, watermark: Option<Path>, isMov: bool, overlay: string)
    ensures GroupSwitches(SinglePassList(src, watermark, isMov, overlay)) == [NoSubtitles]
    ensures GroupWellFormed(SinglePassList(src, watermark, isMov, overlay))
  {
    GroupSteps();
  }

  lemma SinglePassFlags(src: Path, watermark: Option<Path>, isMov: bool, overlay: string)
    ensures GroupOnly(SinglePassList(src, watermark, isMov, overlay),
                      {Input, FilterComplex, Map, VideoCodec, Preset, Crf, PixelFormat, AudioCodec, NoSubtitles})
  {
    LayoutSteps();
  }

  lemma SinglePassInputsFirst(src: Path, watermark: Option<Path>, isMov: bool, overlay: string)
    ensures GroupInputsFirst(SinglePassList(src, watermark, isMov, overlay))
  {
    LayoutSteps();
  }

  /**
    One pass to an H.264 QuickTime file: the source, then the watermark image
    when it is burnt in; its video (or the overlay's `[v]`) and its audio if
    any, audio copied, subtitles dropped, output last.
   */
  function SinglePassArgs(src: Path, watermark: Option<Path>, isMov: bool, out: Path): (r: seq<string>)
    ensures |r| > 0 && r[|r| - 1] == Text(out) && OutputOf(r) == Some(Text(out))
    ensures ValuesIn(r, Input) == [Text(src)] + (if Watermarked(watermark, isMov) then [Text(watermark.value)] else [])
    ensures ValuesIn(r, FilterComplex)
         == if Watermarked(watermark, isMov) then [GraphText(WatermarkGraph(None))] else []
    ensures ValuesIn(r, Map) == [if Watermarked(watermark, isMov) then "[v]" else "0:v", "0:a?"]
    ensures ValuesIn(r, VideoCodec) == ["libx264"] && ValuesIn(r, PixelFormat) == ["yuv420p"]
    ensures ValuesIn(r, Preset) == ["fast"] && ValuesIn(r, Crf) == ["18"]
    ensures ValuesIn(r, AudioCodec) == ["copy"]
    ensures SwitchesIn(r) == [NoSubtitles]
    ensures FlagsIn(r) <= {Input, FilterComplex, Map, VideoCodec, Preset, Crf, PixelFormat, AudioCodec, NoSubtitles}
    ensures InputsFirstIn(r)
  {
    var overlay := GraphText(WatermarkGraph(None));
    var g := SinglePassList(src, watermark, isMov, overlay);
    SinglePassInputs(src, watermark, isMov, overlay);
    SinglePassMaps(src, watermark, isMov, overlay);
    SinglePassSettings(src, watermark, isMov, overlay);
    SinglePassQuality(src, watermark, isMov, overlay);
    SinglePassSwitches(src, watermark, isMov, overlay);
    FlatQueries(g);
    CommandQueries(Command(Flat(g), Text(out)));
    assert FlagsIn(Tokens(Command(Flat(g), Text(out)))) <= {Input, FilterComplex, Map, VideoCodec, Preset, Crf, PixelFormat, AudioCodec, NoSubtitles} && InputsFirstIn(Tokens(Command(Flat(g), Text(out)))) by {
      SinglePassFlags(src, watermark, isMov, overlay);
      SinglePassInputsFirst(src, watermark, isMov, overlay);
      CommandLayout(g, Text(out), {Input, FilterComplex, Map, VideoCodec, Preset, Crf, PixelFormat, AudioCodec, NoSubtitles});
    }
    Tokens(Command(Flat(g), Text(out)))
  }

  // ---------------------------------------------------------------------
  // QuickTime from MOV: the step after the AVFoundation pre-pass
  // ---------------------------------------------------------------------

  /** The watermark image as an input of its own, or nothing. */
  function WatermarkInput(watermark: Option<Path>): Group {
    if watermark.Some? then Single(Opt(Input, Text(watermark.value))) else Empty
  }

  /** The overlay graph with a watermark; otherwise the LUT alone as `-vf`; otherwise no filter. */
  function MovFilter(watermark: Option<Path>, lut: Option<Path>, graph: string, lutFilter: string): Group {
    if watermark.Some? then Single(Opt(FilterComplex, graph))
    else if lut.Some? then Single(Opt(VideoFilter, lutFilter))
    else Empty
  }

  lemma MovPiecesValues(watermark: Option<Path>, lut: Option<Path>, graph: string, lutFilter: string, f: Flag)
    ensures GroupValues(WatermarkInput(watermark), f)
         == if watermark.Some? && f == Input then [Text(watermark.value)] else []
    ensures GroupValues(MovFilter(watermark, lut, graph, lutFilter), f)
         == if watermark.Some? && f == FilterComplex then [graph]
            else if watermark.None? && lut.Some? && f == VideoFilter then [lutFilter]
            else []
  {
  }

  /**
    The three lists of the second MOV step, written as one list whose
    watermark input and filter are present or absent: the 8-bit
    intermediate, the watermark image, the original clip; the overlay graph
    (`graph`, the LUT as its first stage when there is one) or the LUT alone
    (`lutFilter`); the video and the original's audio; H.264; audio copied;
    no subtitles.
   */
  function MovStepList(eightBit: Path, watermark: Option<Path>, src: Path, lut: Option<Path>, graph: string, lutFilter: string): Group {
    Join(
      Join(Join(Join(Single(Opt(Input, Text(eightBit))), WatermarkInput(watermark)),
                Single(Opt(Input, Text(src)))),
           MovFilter(watermark, lut, graph, lutFilter)),
      Join(Join(Single(Opt(Map, if watermark.Some? then "[v]" else "0:v")),
                Single(Opt(Map, if watermark.Some? then "2:a?" else "1:a?"))),
           Join(X264, Join(Single(Opt(AudioCodec, "copy")), Single(Switch(NoSubtitles))))))
  }

  lemma MovStepParts(eightBit: Path, watermark: Option<Path>, src: Path, lut: Option<Path>, graph: string, lutFilter: string, f: Flag)
    ensures GroupValues(MovStepList(eightBit, watermark, src, lut, graph, lutFilter), f)
         == Concat(
              Concat(Concat(Concat(GroupValues(Single(Opt(Input, Text(eightBit))), f),
                                   GroupValues(WatermarkInput(watermark), f)),
                            GroupValues(Single(Opt(Input, Text(src))), f)),
                     GroupValues(MovFilter(watermark, lut, graph, lutFilter), f)),
              Concat(Concat(GroupValues(Single(Opt(Map, if watermark.Some? then "[v]" else "0:v")), f),
                            GroupValues(Single(Opt(Map, if watermark.Some? then "2:a?" else "1:a?")), f)),
                     Concat(GroupValues(X264, f), GroupValues(Single(Opt(AudioCodec, "copy")), f))))
  {
    GroupSteps();
  }

  lemma MovStepInputs(eightBit: Path, watermark: Option<Path>, src: Path, lut: Option<Path>, graph: string, lutFilter: string)
    ensures GroupValues(MovStepList(eightBit, watermark, src, lut, graph, lutFilter), Input)
         == [Text(eightBit)] + (if watermark.Some? then [Text(watermark.value)] else []) + [Text(src)]
  {
    MovStepParts(eightBit, watermark, src, lut, graph, lutFilter, Input);
    MovPiecesValues(watermark, lut, graph, lutFilter, Input);
    GroupSteps();
  }

  lemma MovStepMaps(eightBit: Path, watermark: Option<Path>, src: Path, lut: Option<Path>, graph: string, lutFilter: string)
    ensures GroupValues(MovStepList(eightBit, watermark, src, lut, graph, lutFilter), Map)
         == if watermark.Some? then ["[v]", "2:a?"] else ["0:v", "1:a?"]
  {
    MovStepParts(eightBit, watermark, src, lut, graph, lutFilter, Map);
    MovPiecesValues(watermark, lut, graph, lutFilter, Map);
    GroupSteps();
  }

  lemma MovStepFilters(eightBit: Path, watermark: Option<Path>, src: Path, lut: Option<Path>, graph: string, lutFilter: string)
    ensures GroupValues(MovStepList(eightBit, watermark, src, lut, graph, lutFilter), FilterComplex)
         == if watermark.Some? then [graph] else []
    ensures GroupValues(MovStepList(eightBit, watermark, src, lut, graph, lutFilter), VideoFilter)
         == if watermark.None? && lut.Some? then [lutFilter] else []
  {
    MovStepParts(eightBit, watermark, src, lut, graph, lutFilter, FilterComplex);
    MovStepParts(eightBit, watermark, src, lut, graph, lutFilter, VideoFilter);
    MovPiecesValues(watermark, lut, graph, lutFilter, FilterComplex);
    MovPiecesValues(watermark, lut, graph, lutFilter, VideoFilter);
    GroupSteps();
  }

  lemma MovStepSettings(eightBit: Path, watermark: Option<Path>, src: Path, lut: Option<Path>, graph: string, lutFilter: string)
    ensures GroupValues(MovStepList(eightBit, watermark, src, lut, graph, lutFilter), VideoCodec) == ["libx264"]
    ensures GroupValues(MovStepList(eightBit, watermark, src, lut, graph, lutFilter), PixelFormat) == []
    ensures GroupValues(MovStepList(eightBit, watermark, src, lut, graph, lutFilter), AudioCodec) == ["copy"]
  {
    MovStepParts(eightBit, watermark, src, lut, graph, lutFilter, VideoCodec);
    MovStepParts(eightBit, watermark, src, lut, graph, lutFilter, PixelFormat);
    MovStepParts(eightBit, watermark, src, lut, graph, lutFilter, AudioCodec);
    MovPiecesValues(watermark, lut, graph, lutFilter, VideoCodec);
    MovPiecesValues(watermark, lut, graph, lutFilter, PixelFormat);
    MovPiecesValues(watermark, lut, graph, lutFilter, AudioCodec);
    GroupSteps();
  }

  lemma MovStepQuality(eightBit: Path, watermark: Option<Path>, src: Path, lut: Option<Path>, graph: string, lutFilter: string)
    ensures GroupValues(MovStepList(eightBit, watermark, src, lut, graph, lutFilter), Preset) == ["fast"]
    ensures GroupValues(MovStepList(eightBit, watermark, src, lut, graph, lutFilter), Crf) == ["18"]
  {
    MovStepParts(eightBit, watermark, src, lut, graph, lutFilter, Preset);
    MovStepParts(eightBit, watermark, src, lut, graph, lutFilter, Crf);
    MovPiecesValues(watermark, lut, graph, lutFilter, Preset);
    MovPiecesValues(watermark, lut, graph, lutFilter, Crf);
    GroupSteps();
  }

  lemma MovStepSwitches(eightBit: Path, watermark: Option<Path>, src: Path, lut: Option<Path>, graph: string, lutFilter: string)
    ensures GroupSwitches(MovStepList(eightBit, watermark, src, lut, graph, lutFilter)) == [NoSubtitles]
    ensures GroupWellFormed(MovStepList(eightBit, watermark, src, lut, graph, lutFilter))
  {
    GroupSteps();
  }

  lemma MovStepFlags(eightBit: Path, watermark: Option<Path>, src: Path, lut: Option<Path>, graph: string, lutFilter: string)
    ensures GroupOnly(MovStepList(eightBit, watermark, src, lut, graph, lutFilter),
                      {Input, FilterComplex, VideoFilter, Map, VideoCodec, Preset, Crf, AudioCodec, NoSubtitles})
  {
    LayoutSteps();
  }

  lemma MovStepInputsFirst(eightBit: Path, watermark: Option<Path>, src: Path, lut: Option<Path>, graph: string, lutFilter: string)
    ensures GroupInputsFirst(MovStepList(eightBit, watermark, src, lut, graph, lutFilter))
  {
    LayoutSteps();
  }

  /**
    Encodes the 8-bit intermediate to H.264, taking the audio from the
    original clip (always the last input) and applying the LUT, the
    watermark, both or neither. With a watermark the LUT becomes the first
    stage of the filter graph; without one it is the whole `-vf` chain.
   */
  function MovStepArgs(eightBit: Path, watermark: Option<Path>, src: Path, lut: Option<Path>, out: Path): (r: seq<string>)
    ensures |r| > 0 && r[|r| - 1] == Text(out) && OutputOf(r) == Some(Text(out))
    ensures ValuesIn(r, Input)
         == [Text(eightBit)] + (if watermark.Some? then [Text(watermark.value)] else []) + [Text(src)]
    ensures ValuesIn(r, Map)
         == if watermark.Some? then ["[v]", "2:a?"] else ["0:v", "1:a?"]
    ensures ValuesIn(r, FilterComplex)
         == if watermark.Some? then [GraphText(WatermarkGraph(lut))] else []
    ensures ValuesIn(r, VideoFilter)
         == if watermark.None? && lut.Some? then [LutText(lut.value)] else []
    ensures ValuesIn(r, VideoCodec) == ["libx264"] && ValuesIn(r, PixelFormat) == []
    ensures ValuesIn(r, Preset) == ["fast"] && ValuesIn(r, Crf) == ["18"]
    ensures ValuesIn(r, AudioCodec) == ["copy"]
    ensures SwitchesIn(r) == [NoSubtitles]
    ensures FlagsIn(r) <= {Input, FilterComplex, VideoFilter, Map, VideoCodec, Preset, Crf, AudioCodec, NoSubtitles}
    ensures InputsFirstIn(r)
  {
    var graph := GraphText(WatermarkGraph(lut));
    var lutFilter := if lut.Some? then LutText(lut.value) else "";
    var g := MovStepList(eightBit, watermark, src, lut, graph, lutFilter);
    MovStepInputs(eightBit, watermark, src, lut, graph, lutFilter);
    MovStepMaps(eightBit, watermark, src, lut, graph, lutFilter);
    MovStepFilters(eightBit, watermark, src, lut, graph, lutFilter);
    MovStepSettings(eightBit, watermark, src, lut, graph, lutFilter);
    MovStepQuality(eightBit, watermark, src, lut, graph, lutFilter);
    MovStepSwitches(eightBit, watermark, src, lut, graph, lutFilter);
    FlatQueries(g);
    CommandQueries(Command(Flat(g), Text(out)));
    assert FlagsIn(Tokens(Command(Flat(g), Text(out)))) <= {Input, FilterComplex, VideoFilter, Map, VideoCodec, Preset, Crf, AudioCodec, NoSubtitles} && InputsFirstIn(Tokens(Command(Flat(g), Text(out)))) by {
      MovStepFlags(eightBit, watermark, src, lut, graph, lutFilter);
      MovStepInputsFirst(eightBit, watermark, src, lut, graph, lutFilter);
      CommandLayout(g, Text(out), {Input, FilterComplex, VideoFilter, Map, VideoCodec, Preset, Crf, AudioCodec, NoSubtitles});
    }
    Tokens(Command(Flat(g), Text(out)))
  }

  // ---------------------------------------------------------------------
  // MXF: an MPEG-2 video-only intermediate, then a stream-copy remux
  // ---------------------------------------------------------------------

  function MxfFirstList(src: Path, watermark: Option<Path>, isMov: bool, overlay: string): Group {
    Join(
      Join(Join(Single(Opt(Input, Text(src))), WatermarkArgs(watermark, isMov, overlay)),
           VideoMap(watermark, isMov)),
      Join(MpegCodec, Single(Switch(NoAudio))))
  }

  lemma MxfFirstParts(src: Path, watermark: Option<Path>, isMov: bool, overlay: string, f: Flag)
    ensures GroupValues(MxfFirstList(src, watermark, isMov, overlay), f)
         == Concat(
              Concat(Concat(GroupValues(Single(Opt(Input, Text(src))), f),
                            GroupValues(WatermarkArgs(watermark, isMov, overlay), f)),
                     GroupValues(VideoMap(watermark, isMov), f)),
              GroupValues(MpegCodec, f))
  {
    GroupSteps();
  }

  lemma MxfFirstStreams(src: Path, watermark: Option<Path>, isMov: bool, overlay: string)
    ensures GroupValues(MxfFirstList(src, watermark, isMov, overlay), Input)
         == [Text(src)] + (if Watermarked(watermark, isMov) then [Text(watermark.value)] else [])
    ensures GroupValues(MxfFirstList(src, watermark, isMov, overlay), FilterComplex)
         == if Watermarked(watermark, isMov) then [overlay] else []
    ensures GroupValues(MxfFirstList(src, watermark, isMov, overlay), Map)
         == [if Watermarked(watermark, isMov) then "[v]" else "0:v"]
  {
    MxfFirstParts(src, watermark, isMov, overlay, Input);
    MxfFirstParts(src, watermark, isMov, overlay, FilterComplex);
    MxfFirstParts(src, watermark, isMov, overlay, Map);
    WatermarkArgsValues(watermark, isMov, overlay, Input);
    WatermarkArgsValues(watermark, isMov, overlay, FilterComplex);
    WatermarkArgsValues(watermark, isMov, overlay, Map);
    GroupSteps();
  }

  lemma MxfFirstSettings(src: Path, watermark: Option<Path>, isMov: bool, overlay: string)
    ensures GroupValues(MxfFirstList(src, watermark, isMov, overlay), VideoCodec) == ["mpeg2video"]
    ensures GroupValues(MxfFirstList(src, watermark, isMov, overlay), VideoBitrate) == ["45M"]
    ensures GroupValues(MxfFirstList(src, watermark, isMov, overlay), MaxRate) == ["45M"]
  {
    MxfFirstParts(src, watermark, isMov, overlay, VideoCodec);
    MxfFirstParts(src, watermark, isMov, overlay, VideoBitrate);
    MxfFirstParts(src, watermark, isMov, overlay, MaxRate);
    WatermarkArgsValues(watermark, isMov, overlay, VideoCodec);
    WatermarkArgsValues(watermark, isMov, overlay, VideoBitrate);
    WatermarkArgsValues(watermark, isMov, overlay, MaxRate);
    GroupSteps();
  }

  lemma MxfFirstBuffer(src: Path, watermark: Option<Path>, isMov: bool, overlay: string)
    ensures GroupValues(MxfFirstList(src, watermark, isMov, overlay), BufSize) == ["90M"]
    ensures GroupValues(MxfFirstList(src, watermark, isMov, overlay), AudioCodec) == []
  {
    MxfFirstParts(src, watermark, isMov, overlay, BufSize);
    MxfFirstParts(src, watermark, isMov, overlay, AudioCodec);
    WatermarkArgsValues(watermark, isMov, overlay, BufSize);
    WatermarkArgsValues(watermark, isMov, overlay, AudioCodec);
    GroupSteps();
  }

  lemma MxfFirstSwitches(src: Path, watermark: Option<Path>, isMov: bool, overlay: string)
    ensures GroupSwitches(MxfFirstList(src, watermark, isMov, overlay)) == [NoAudio]
    ensures GroupWellFormed(MxfFirstList(src, watermark, isMov, overlay))
  {
    GroupSteps();
  }

  lemma MxfFirstFlags(src: Path, watermark: Option<Path>, isMov: bool, overlay: string)
    ensures GroupOnly(MxfFirstList(src, watermark, isMov, overlay),
                      {Input, FilterComplex, Map, VideoCodec, VideoBitrate, MaxRate, BufSize, NoAudio})
  {
    LayoutSteps();
  }

  lemma MxfFirstInputsFirst(src: Path, watermark: Option<Path>, isMov: bool, overlay: string)
    ensures GroupInputsFirst(MxfFirstList(src, watermark, isMov, overlay))
  {
    LayoutSteps();
  }

  /** The first MXF step: video only (`-an`), MPEG-2 at 45 Mbit/s, into the temporary file. */
  function MxfFirstArgs(src: Path, watermark: Option<Path>, isMov: bool, temp: Path): (r: seq<string>)
    ensures |r| > 0 && r[|r| - 1] == Text(temp) && OutputOf(r) == Some(Text(temp))
    ensures ValuesIn(r, Input) == [Text(src)] + (if Watermarked(watermark, isMov) then [Text(watermark.value)] else [])
    ensures ValuesIn(r, FilterComplex)
         == if Watermarked(watermark, isMov) then [GraphText(WatermarkGraph(None))] else []
    ensures ValuesIn(r, Map) == [if Watermarked(watermark, isMov) then "[v]" else "0:v"]
    ensures ValuesIn(r, VideoCodec) == ["mpeg2video"] && ValuesIn(r, VideoBitrate) == ["45M"]
    ensures ValuesIn(r, MaxRate) == ["45M"] && ValuesIn(r, BufSize) == ["90M"]
    ensures ValuesIn(r, AudioCodec) == []
    ensures SwitchesIn(r) == [NoAudio]
    ensures FlagsIn(r) <= {Input, FilterComplex, Map, VideoCodec, VideoBitrate, MaxRate, BufSize, NoAudio}
    ensures InputsFirstIn(r)
  {
    var overlay := GraphText(WatermarkGraph(None));
    var g := MxfFirstList(src, watermark, isMov, overlay);
    MxfFirstStreams(src, watermark, isMov, overlay);
    MxfFirstSettings(src, watermark, isMov, overlay);
    MxfFirstBuffer(src, watermark, isMov, overlay);
    MxfFirstSwitches(src, watermark, isMov, overlay);
    FlatQueries(g);
    CommandQueries(Command(Flat(g), Text(temp)));
    assert FlagsIn(Tokens(Command(Flat(g), Text(temp)))) <= {Input, FilterComplex, Map, VideoCodec, VideoBitrate, MaxRate, BufSize, NoAudio} && InputsFirstIn(Tokens(Command(Flat(g), Text(temp)))) by {
      MxfFirstFlags(src, watermark, isMov, overlay);
      MxfFirstInputsFirst(src, watermark, isMov, overlay);
      CommandLayout(g, Text(temp), {Input, FilterComplex, Map, VideoCodec, VideoBitrate, MaxRate, BufSize, NoAudio});
    }
    Tokens(Command(Flat(g), Text(temp)))
  }

  /** Inputs, maps, codecs and container options, as four groups. */
  function MxfSecondList(src: Path, temp: Path): Group {
    Join(
      Join(
        Join(Single(Opt(Input, Text(src))), Single(Opt(Input, Text(temp)))),
        Join(Join(Single(Opt(Map, "1:v:0")), Single(Opt(Map, "0:a?"))),
             Join(Single(Opt(Map, "0:d?")), Single(Opt(Map, "0:s?"))))),
      Join(
        Join(Join(Single(Opt(VideoCodec, "copy")), Single(Opt(AudioCodec, "copy"))),
             Join(Single(Opt(DataCodec, "copy")), Single(Opt(SubtitleCodec, "copy")))),
        Join(Single(Opt(MapMetadata, "0")), Single(Opt(Format, "mxf")))))
  }

  lemma MxfSecondStreams(src: Path, temp: Path)
    ensures GroupValues(MxfSecondList(src, temp), Input) == [Text(src), Text(temp)]
    ensures GroupValues(MxfSecondList(src, temp), Map) == ["1:v:0", "0:a?", "0:d?", "0:s?"]
  {
    GroupSteps();
  }

  lemma MxfSecondCodecs(src: Path, temp: Path)
    ensures GroupValues(MxfSecondList(src, temp), VideoCodec) == ["copy"]
    ensures GroupValues(MxfSecondList(src, temp), AudioCodec) == ["copy"]
  {
    GroupSteps();
  }

  lemma MxfSecondTracks(src: Path, temp: Path)
    ensures GroupValues(MxfSecondList(src, temp), DataCodec) == ["copy"]
    ensures GroupValues(MxfSecondList(src, temp), SubtitleCodec) == ["copy"]
  {
    GroupSteps();
  }

  lemma MxfSecondContainer(src: Path, temp: Path)
    ensures GroupValues(MxfSecondList(src, temp), MapMetadata) == ["0"]
    ensures GroupValues(MxfSecondList(src, temp), Format) == ["mxf"]
  {
    GroupSteps();
  }

  lemma MxfSecondFilters(src: Path, temp: Path)
    ensures GroupValues(MxfSecondList(src, temp), FilterComplex) == []
    ensures GroupValues(MxfSecondList(src, temp), VideoFilter) == []
  {
    GroupSteps();
  }

  lemma MxfSecondSwitches(src: Path, temp: Path)
    ensures GroupSwitches(MxfSecondList(src, temp)) == []
    ensures GroupWellFormed(MxfSecondList(src, temp))
  {
    GroupSteps();
  }

  lemma MxfSecondFlags(src: Path, temp: Path)
    ensures GroupOnly(MxfSecondList(src, temp),
                      {Input, Map, VideoCodec, AudioCodec, DataCodec, SubtitleCodec, MapMetadata, Format})
  {
    LayoutSteps();
  }

  lemma MxfSecondInputsFirst(src: Path, temp: Path)
    ensures GroupInputsFirst(MxfSecondList(src, temp))
  {
    LayoutSteps();
  }

  /**
    The second MXF step: the new video from the temporary file, then the
    original's audio, data and subtitle tracks in that order, everything
    stream-copied, the original's metadata kept, written as MXF.
   */
  function MxfSecondArgs(src: Path, temp: Path, out: Path): (r: seq<string>)
    ensures |r| > 0 && r[|r| - 1] == Text(out) && OutputOf(r) == Some(Text(out))
    ensures ValuesIn(r, Input) == [Text(src), Text(temp)]
    ensures ValuesIn(r, Map) == ["1:v:0", "0:a?", "0:d?", "0:s?"]
    ensures ValuesIn(r, VideoCodec) == ["copy"] && ValuesIn(r, AudioCodec) == ["copy"]
    ensures ValuesIn(r, DataCodec) == ["copy"] && ValuesIn(r, SubtitleCodec) == ["copy"]
    ensures ValuesIn(r, MapMetadata) == ["0"] && ValuesIn(r, Format) == ["mxf"]
    ensures ValuesIn(r, FilterComplex) == [] && ValuesIn(r, VideoFilter) == []
    ensures SwitchesIn(r) == []
    ensures FlagsIn(r) <= {Input, Map, VideoCodec, AudioCodec, DataCodec, SubtitleCodec, MapMetadata, Format}
    ensures InputsFirstIn(r)
  {
    var g := MxfSecondList(src, temp);
    MxfSecondStreams(src, temp);
    MxfSecondCodecs(src, temp);
    MxfSecondTracks(src, temp);
    MxfSecondContainer(src, temp);
    MxfSecondFilters(src, temp);
    MxfSecondSwitches(src, temp);
    FlatQueries(g);
    CommandQueries(Command(Flat(g), Text(out)));
    assert FlagsIn(Tokens(Command(Flat(g), Text(out)))) <= {Input, Map, VideoCodec, AudioCodec, DataCodec, SubtitleCodec, MapMetadata, Format} && InputsFirstIn(Tokens(Command(Flat(g), Text(out)))) by {
      MxfSecondFlags(src, temp);
      MxfSecondInputsFirst(src, temp);
      CommandLayout(g, Text(out), {Input, Map, VideoCodec, AudioCodec, DataCodec, SubtitleCodec, MapMetadata, Format});
    }
    Tokens(Command(Flat(g), Text(out)))
  }
}

=== FILE: filesystem.dfy ===
/**
  The file-system facts the pipeline asks for, as a snapshot: which paths
  exist, which are folders, and what a folder lists. `fileExists(atPath:
  isDirectory:)` and `contentsOfDirectory(at:)` become lookups in it.
 */
module FileSystem {
  import opened Wrappers
  import opened Paths

  /** A folder's listing is `None` when `contentsOfDirectory` throws. */
  datatype Node = File | Folder(listing: Option<seq<string>>)

  /** Nodes keyed by standardized path; a path that is not a key does not exist. */
  type Snapshot = map<Path, Node>

  /** What the file system says about `p`; the OS resolves "." and ".." itself. */
  function Lookup(fs: Snapshot, p: Path): (r: Option<Node>)
    ensures r.Some? <==> Standardize(p) in fs
  {
    var q := Standardize(p);
    if q in fs then Some(fs[q]) else None
  }

  predicate Exists(fs: Snapshot, p: Path) {
    Lookup(fs, p).Some?
  }

  /** `isDir.boolValue` after `fileExists(atPath:isDirectory:)`: false for a missing path. */
  predicate IsFolder(fs: Snapshot, p: Path) {
    Lookup(fs, p).Some? && Lookup(fs, p).value.Folder?
  }

  /**
    The drop zone's test for one dragged item: it exists and is either a
    folder or has an `mxf`/`mov` extension in any letter case.
   */
  predicate Acceptable(fs: Snapshot, p: Path) {
    Exists(fs, p) && (IsFolder(fs, p) || IsMediaName(LastComponent(p)))
  }

  /** `containsAcceptableItem`: does any dragged item pass the test? */
  function AnyAcceptable(fs: Snapshot, items: seq<Path>): (r: bool)
    ensures r <==> exists i :: 0 <= i < |items| && Acceptable(fs, items[i])
  {
    if |items| == 0 then false
    else
      assert forall i :: 1 <= i < |items| ==> items[i] == items[1..][i - 1];
      Acceptable(fs, items[0]) || AnyAcceptable(fs, items[1..])
  }
}

=== FILE: filtergraph.dfy ===
/**
  The `-filter_complex` / `-vf` values as filter graphs: chains of filters
  between bracketed stream labels, filters joined by ',' and chains by ';'.
  The watermark graph is defined once as a structure and rendered to text.
  That the LUT-free rendering is the program's literal filter string holds
  by construction of the structure, not by a proof; what is proved is that
  the LUT variant is that text with the `lut3d` filter spliced in after the
  leading `[0:v]`, as the program builds it.
 */
module FilterGraph {
  import opened Wrappers
  import opened Paths

  datatype Filter = Filter(name: string, options: string)

  /** `[in]...filter,filter,...[out]...` */
  datatype Chain = Chain(inputs: seq<string>, filters: seq<Filter>, outputs: seq<string>)

  function FilterText(f: Filter): string {
    if f.options == "" then f.name else f.name + "=" + f.options
  }

  function LabelsText(labels: seq<string>): string {
    if |labels| == 0 then "" else "[" + labels[0] + "]" + LabelsText(labels[1..])
  }

  function FiltersText(fs: seq<Filter>): string {
    if |fs| == 0 then ""
    else if |fs| == 1 then FilterText(fs[0])
    else FilterText(fs[0]) + "," + FiltersText(fs[1..])
  }

  function ChainText(c: Chain): string {
    LabelsText(c.inputs) + FiltersText(c.filters) + LabelsText(c.outputs)
  }

  function GraphText(g: seq<Chain>): string {
    if |g| == 0 then ""
    else if |g| == 1 then ChainText(g[0])
    else ChainText(g[0]) + ";" + GraphText(g[1..])
  }

  // ---------------------------------------------------------------------
  // The pipeline's graphs
  // ---------------------------------------------------------------------

  /** Apply a 3D colour look-up table read from a `.cube` file. */
  function LutFilter(lut: Path): Filter {
    Filter("lut3d", "file='" + Text(lut) + "'")
  }

  const ScaleMain: Filter := Filter("scale", "-1:-1:flags=bicubic:out_color_matrix=bt709")
  const ToYuv420: Filter := Filter("format", "yuv420p")

  /** Main picture: optional LUT, then rescale and convert, labelled `v0`. */
  function MainChain(lut: Option<Path>): Chain {
    Chain(["0:v"], (if lut.Some? then [LutFilter(lut.value)] else []) + [ScaleMain, ToYuv420], ["v0"])
  }

  /** Watermark image: 160 pixels high, half transparent, labelled `wm`. */
  const LogoChain: Chain :=
    Chain(["1:v"], [Filter("scale", "-1:160"), Filter("format", "rgba"), Filter("colorchannelmixer", "aa=0.5")], ["wm"])

  /** The watermark laid over the picture 10 pixels from the bottom-right corner, labelled `v`. */
  const OverlayChain: Chain := Chain(["v0", "wm"], [Filter("overlay", "W-w-10:H-h-10")], ["v"])

  function WatermarkGraph(lut: Option<Path>): seq<Chain> {
    [MainChain(lut), LogoChain, OverlayChain]
  }

  /** The `lut3d=file='…'` text, alone as a `-vf` value or as the first stage of the main chain. */
  function LutText(lut: Path): (r: string)
    ensures r == FilterText(LutFilter(lut))
    ensures r == ChainText(Chain([], [LutFilter(lut)], []))
  {
    "lut3d=file='" + Text(lut) + "'"
  }

  /** Putting a filter in front of a non-empty list puts its text and a comma in front. */
  lemma {:induction false} FiltersTextCons(f: Filter, fs: seq<Filter>)
    requires |fs| > 0
    ensures FiltersText([f] + fs) == FilterText(f) + "," + FiltersText(fs)
  {
    assert ([f] + fs)[1..] == fs;
  }

  /** A graph of several chains renders its first chain, a ';', then the others. */
  lemma {:induction false} GraphTextCons(c: Chain, more: seq<Chain>)
    requires |more| > 0
    ensures GraphText([c] + more) == ChainText(c) + ";" + GraphText(more)
  {
    assert ([c] + more)[1..] == more;
  }

  /** Splicing a filter in front of the first chain of a graph whose text starts with `[0:v]`. */
  lemma {:induction false} SpliceFirst(f: Filter, fs: seq<Filter>, outs: seq<string>, more: seq<Chain>)
    requires |fs| > 0 && |more| > 0
    ensures |GraphText([Chain(["0:v"], fs, outs)] + more)| >= 5
    ensures GraphText([Chain(["0:v"], fs, outs)] + more)[..5] == "[0:v]"
    ensures GraphText([Chain(["0:v"], [f] + fs, outs)] + more)
         == "[0:v]" + FilterText(f) + "," + GraphText([Chain(["0:v"], fs, outs)] + more)[5..]
  {
    var rest := FiltersText(fs) + LabelsText(outs) + ";" + GraphText(more);
    var plain := GraphText([Chain(["0:v"], fs, outs)] + more);
    GraphWithout(fs, outs, more);
    GraphWith(f, fs, outs, more);
    assert plain == "[0:v]" + rest;
    assert plain[5..] == rest;
  }

  lemma GraphWithout(fs: seq<Filter>, outs: seq<string>, more: seq<Chain>)
    requires |more| > 0
    ensures GraphText([Chain(["0:v"], fs, outs)] + more)
         == "[0:v]" + (FiltersText(fs) + LabelsText(outs) + ";" + GraphText(more))
  {
    var c := Chain(["0:v"], fs, outs);
    var a, b, g := FiltersText(fs), LabelsText(outs), GraphText(more);
    assert GraphText([c] + more) == ChainText(c) + ";" + g by {
      GraphTextCons(c, more);
    }
    assert ChainText(c) == "[0:v]" + a + b by {
      LabelsZero();
    }
    Regroup("[0:v]", a, b, g);
  }

  lemma Regroup(h: string, a: string, b: string, g: string)
    ensures h + a + b + ";" + g == h + (a + b + ";" + g)
  {
  }

  lemma GraphWith(f: Filter, fs: seq<Filter>, outs: seq<string>, more: seq<Chain>)
    requires |fs| > 0 && |more| > 0
    ensures GraphText([Chain(["0:v"], [f] + fs, outs)] + more)
         == "[0:v]" + FilterText(f) + "," + (FiltersText(fs) + LabelsText(outs) + ";" + GraphText(more))
  {
    var c := Chain(["0:v"], [f] + fs, outs);
    var a, b, g := FiltersText(fs), LabelsText(outs), GraphText(more);
    assert GraphText([c] + more) == ChainText(c) + ";" + g by {
      GraphTextCons(c, more);
    }
    assert ChainText(c) == "[0:v]" + (FilterText(f) + "," + a) + b by {
      LabelsZero();
      FiltersTextCons(f, fs);
    }
    RegroupSpliced("[0:v]", FilterText(f), a, b, g);
  }

  lemma RegroupSpliced(h: string, x: string, a: string, b: string, g: string)
    ensures h + (x + "," + a) + b + ";" + g == h + x + "," + (a + b + ";" + g)
  {
  }

  /**
    Turning the LUT on changes the graph text exactly as the pipeline splices
    strings: `lut3d=file='…',` goes in right after the leading `[0:v]`, and
    the rest of the text is the LUT-free graph's.
   */
  lemma LutGraphText(lut: Path)
    ensures var plain := GraphText(WatermarkGraph(None));
      && |plain| >= 5 && plain[..5] == "[0:v]"
      && GraphText(WatermarkGraph(Some(lut))) == "[0:v]" + LutText(lut) + "," + plain[5..]
  {
    var fs := [ScaleMain, ToYuv420];
    assert [] + fs == fs;
    SpliceFirst(LutFilter(lut), fs, ["v0"], [LogoChain, OverlayChain]);
  }

  lemma LabelsZero()
    ensures LabelsText(["0:v"]) == "[0:v]"
  {
    var zero := ["0:v"];
    assert zero[1..] == [];
  }

  /** In the main chain the LUT, when present, is the first stage, and it is never anywhere else. */
  lemma LutComesFirst(lut: Option<Path>)
    ensures lut.Some? ==> MainChain(lut).filters[0] == LutFilter(lut.value)
    ensures lut.Some? ==> forall i :: 0 < i < |MainChain(lut).filters| ==> MainChain(lut).filters[i].name != "lut3d"
    ensures lut.None? ==> forall i :: 0 <= i < |MainChain(lut).filters| ==> MainChain(lut).filters[i].name != "lut3d"
    ensures forall i :: 0 <= i < |LogoChain.filters| ==> LogoChain.filters[i].name != "lut3d"
    ensures forall i :: 0 <= i < |OverlayChain.filters| ==> OverlayChain.filters[i].name != "lut3d"
  {
  }

  /** The overlay is the graph's last stage and produces `[v]`, the label the lists map. */
  lemma OverlayIsLast(lut: Option<Path>)
    ensures var g := WatermarkGraph(lut);
      && g[|g| - 1].filters[|g[|g| - 1].filters| - 1].name == "overlay"
      && g[|g| - 1].outputs == ["v"]
      && g[|g| - 1].inputs == MainChain(lut).outputs + LogoChain.outputs
  {
  }
}

=== FILE: jobqueue.dfy ===
/**
  The job queue of the application: dropped folders and files wait in a
  FIFO queue, at most one of them is being converted, and a running total
  counts the clips still to convert. Every transition is a pure function of
  the queue state; the file system is a snapshot passed in.
 */
module JobQueue {
  import opened Wrappers
  import opened Paths
  import opened Listing
  import opened FileSystem

  /**
    `jobQueue`, `activeJob`, `isProcessing` and `totalClipsQueued`. The total
    is a plain integer: nothing keeps it from going below zero.
   */
  datatype QueueState = QueueState(queue: seq<Path>, active: Option<Path>, processing: bool, total: int)

  const Initial: QueueState := QueueState([], None, false, 0)

  /** The jobs the application knows about, in the order it will have run them: the active one, then the queue. */
  function Jobs(s: QueueState): (r: seq<Path>)
    ensures |r| == |s.queue| + (if s.active.Some? then 1 else 0)
    ensures s.active.Some? ==> r[0] == s.active.value && r[1..] == s.queue
    ensures s.active.None? ==> r == s.queue
  {
    (if s.active.Some? then [s.active.value] else []) + s.queue
  }

  /** Two URLs name the same job when their standardized paths agree. */
  predicate SamePath(a: Path, b: Path) {
    Standardize(a) == Standardize(b)
  }

  predicate AllStandard(jobs: seq<Path>) {
    forall i :: 0 <= i < |jobs| ==> Standard(jobs[i])
  }

  predicate Distinct(jobs: seq<Path>) {
    forall i, j :: 0 <= i < j < |jobs| ==> jobs[i] != jobs[j]
  }

  /**
    What the transitions keep: a job is active exactly while a batch is
    processing, nothing waits while the application is idle, and every job
    is held once, in standardized form.
   */
  predicate Valid(s: QueueState) {
    && (s.processing <==> s.active.Some?)
    && (!s.processing ==> |s.queue| == 0)
    && AllStandard(Jobs(s))
    && Distinct(Jobs(s))
  }

  lemma InitialValid()
    ensures Valid(Initial)
  {
  }

  // ---------------------------------------------------------------------
  // Duplicate test
  // ---------------------------------------------------------------------

  /** `jobQueue.contains { … }` with the standardized-path comparison. */
  function QueueContains(queue: seq<Path>, u: Path): (r: bool)
    ensures r <==> exists i :: 0 <= i < |queue| && SamePath(queue[i], u)
  {
    if |queue| == 0 then false
    else
      assert forall i :: 1 <= i < |queue| ==> queue[i] == queue[1..][i - 1];
      SamePath(queue[0], u) || QueueContains(queue[1..], u)
  }

  /** `isDuplicateJob`: the active job or a waiting one has the same standardized path. */
  function IsDuplicate(s: QueueState, u: Path): (r: bool)
    ensures r <==> exists i :: 0 <= i < |Jobs(s)| && SamePath(Jobs(s)[i], u)
  {
    var jobs := Jobs(s);
    assert forall i :: 0 <= i < |s.queue| ==> s.queue[i] == jobs[i + |jobs| - |s.queue|];
    (s.active.Some? && SamePath(s.active.value, u)) || QueueContains(s.queue, u)
  }

  /** For a valid state, a duplicate is exactly a standardized path already among the jobs. */
  lemma DuplicateMeansHeld(s: QueueState, u: Path)
    requires Valid(s)
    ensures IsDuplicate(s, u) <==> Standardize(u) in Jobs(s)
  {
    var jobs := Jobs(s);
    forall i | 0 <= i < |jobs|
      ensures SamePath(jobs[i], u) <==> jobs[i] == Standardize(u)
    {
      StandardizeFixes(jobs[i]);
    }
  }

  // ---------------------------------------------------------------------
  // Clip counting
  // ---------------------------------------------------------------------

  /**
    What an accepted job adds to the total: the number of MXF/MOV entries of
    a folder (none when the folder cannot be listed), and one for anything
    that is not a folder.
   */
  function ClipEstimate(fs: Snapshot, u: Path): (r: nat)
    ensures !IsFolder(fs, u) ==> r == 1
    ensures IsFolder(fs, u) && Lookup(fs, u).value.listing.None? ==> r == 0
    ensures IsFolder(fs, u) && Lookup(fs, u).value.listing.Some? ==>
              r == |ClipNames(Lookup(fs, u).value.listing.value)|
  {
    if IsFolder(fs, u) then
      match Lookup(fs, u).value.listing
      case None => 0
      case Some(names) =>
        CountMatchesClips(names);
        CountMedia(names)
    else 1
  }

  // ---------------------------------------------------------------------
  // Transitions
  // ---------------------------------------------------------------------

  /**
    `startNextJobIfNeeded`: while a batch runs nothing happens; otherwise the
    head of the queue, if any, becomes the active job.
   */
  function StartNext(s: QueueState): (r: QueueState)
    ensures s.processing ==> r == s
    ensures !s.processing && |s.queue| == 0 ==> r == s
    ensures !s.processing && |s.queue| > 0 ==>
              r.processing && r.active == Some(s.queue[0]) && r.queue == s.queue[1..]
    ensures r.total == s.total
  {
    if s.processing then s
    else if |s.queue| == 0 then s
    else s.(processing := true, active := Some(s.queue[0]), queue := s.queue[1..])
  }

  /** `enqueueJob`: a new standardized job goes to the tail with its clip count, then the queue advances. */
  function Enqueue(s: QueueState, fs: Snapshot, url: Path): (r: QueueState)
    ensures IsDuplicate(s, url) ==> r == s
    ensures !IsDuplicate(s, url) ==> r.total == s.total + ClipEstimate(fs, url)
  {
    var u := Standardize(url);
    if IsDuplicate(s, u) then
      assert IsDuplicate(s, url) by { StandardizeIdempotent(url); }
      s
    else
      assert !IsDuplicate(s, url) by { StandardizeIdempotent(url); }
      assert ClipEstimate(fs, u) == ClipEstimate(fs, url) by {
        StandardizeIdempotent(url);
        assert Lookup(fs, u) == Lookup(fs, url);
      }
      StartNext(s.(queue := s.queue + [u], total := s.total + ClipEstimate(fs, u)))
  }

  /** The completion handler of a batch: no job is active any more, and the queue advances. */
  function Finish(s: QueueState): (r: QueueState)
    ensures r.total == s.total
    ensures r.processing <==> |s.queue| > 0
    ensures r.active == if |s.queue| > 0 then Some(s.queue[0]) else None
    ensures r.queue == if |s.queue| > 0 then s.queue[1..] else []
  {
    StartNext(s.(processing := false, active := None))
  }

  /** One processed clip: `totalClipsQueued -= 1`, unguarded. */
  function Decrement(s: QueueState): (r: QueueState)
    ensures r.total == s.total - 1
    ensures Jobs(r) == Jobs(s)
    ensures r.queue == s.queue && r.active == s.active && r.processing == s.processing
  {
    s.(total := s.total - 1)
  }

  // ---------------------------------------------------------------------
  // What the transitions do to the jobs
  // ---------------------------------------------------------------------

  /** Starting the next job runs the jobs in order: the job sequence itself never changes. */
  lemma {:induction false} StartNextKeepsOrder(s: QueueState)
    requires s.processing <==> s.active.Some?
    ensures Jobs(StartNext(s)) == Jobs(s)
    ensures StartNext(s).processing <==> StartNext(s).active.Some?
    ensures StartNext(s).processing <==> s.processing || |s.queue| > 0
  {
    if !s.processing && |s.queue| > 0 {
      assert Jobs(StartNext(s)) == [s.queue[0]] + s.queue[1..];
    }
  }

  /**
    An enqueue either changes nothing (the path is already held) or appends
    the standardized path at the tail and adds its clip estimate to the
    total; a batch is then processing, and if none was, the new path is the
    active job and nothing waits.
   */
  lemma {:induction false} EnqueueAppends(s: QueueState, fs: Snapshot, url: Path)
    requires Valid(s)
    ensures var r := Enqueue(s, fs, url);
            if Standardize(url) in Jobs(s) then r == s
            else
              && Jobs(r) == Jobs(s) + [Standardize(url)]
              && r.total == s.total + ClipEstimate(fs, url)
              && r.processing
              && (s.processing ==> r.active == s.active && r.queue == s.queue + [Standardize(url)])
              && (!s.processing ==> r.active == Some(Standardize(url)) && r.queue == [])
  {
    var u := Standardize(url);
    StandardizeIdempotent(url);
    DuplicateMeansHeld(s, u);
    if u !in Jobs(s) {
      var t := s.(queue := s.queue + [u], total := s.total + ClipEstimate(fs, u));
      StartNextKeepsOrder(t);
      assert Jobs(t) == Jobs(s) + [u];
      assert ClipEstimate(fs, u) == ClipEstimate(fs, url) by {
        assert Lookup(fs, u) == Lookup(fs, url);
      }
    }
  }

  /** Finishing a batch drops the active job and makes the next one, if any, active. */
  lemma {:induction false} FinishAdvances(s: QueueState)
    requires Valid(s) && s.processing
    ensures Jobs(Finish(s)) == Jobs(s)[1..]
    ensures Finish(s).processing <==> |s.queue| > 0
    ensures |s.queue| > 0 ==> Finish(s).active == Some(s.queue[0])
  {
    var t := s.(processing := false, active := None);
    StartNextKeepsOrder(t);
  }

  lemma {:induction false} DistinctAppend(jobs: seq<Path>, u: Path)
    requires Distinct(jobs) && u !in jobs
    ensures Distinct(jobs + [u])
  {
  }

  lemma {:induction false} DistinctTail(jobs: seq<Path>)
    requires Distinct(jobs) && |jobs| > 0
    ensures Distinct(jobs[1..])
  {
    forall i, j | 0 <= i < j < |jobs[1..]|
      ensures jobs[1..][i] != jobs[1..][j]
    {
      assert jobs[1..][i] == jobs[i + 1] && jobs[1..][j] == jobs[j + 1];
    }
  }

  /** Enqueuing keeps the queue valid. */
  lemma {:induction false} EnqueueValid(s: QueueState, fs: Snapshot, url: Path)
    requires Valid(s)
    ensures Valid(Enqueue(s, fs, url))
  {
    var u := Standardize(url);
    EnqueueAppends(s, fs, url);
    if u !in Jobs(s) {
      var r := Enqueue(s, fs, url);
      DistinctAppend(Jobs(s), u);
      assert Jobs(r) == Jobs(s) + [u];
      var t := s.(queue := s.queue + [u], total := s.total + ClipEstimate(fs, u));
      StandardizeIdempotent(url);
      DuplicateMeansHeld(s, u);
      StartNextKeepsOrder(t);
    }
  }

  /** Finishing a batch keeps the queue valid. */
  lemma {:induction false} FinishValid(s: QueueState)
    requires Valid(s) && s.processing
    ensures Valid(Finish(s))
  {
    FinishAdvances(s);
    DistinctTail(Jobs(s));
    var t := s.(processing := false, active := None);
    StartNextKeepsOrder(t);
  }

  // ---------------------------------------------------------------------
  // Dropping items
  // ---------------------------------------------------------------------

  datatype DropResult = DropResult(state: QueueState, accepted: bool)

  /**
    `performDragOperation`: every dragged item that passes the drop zone's
    test is handed to `enqueueJob`, in order; the drop succeeds when at
    least one item passed.
   */
  function Drop(s: QueueState, fs: Snapshot, urls: seq<Path>): (r: DropResult)
    ensures r.accepted == AnyAcceptable(fs, urls)
    ensures |urls| == 0 ==> r.state == s
    decreases |urls|
  {
    if |urls| == 0 then DropResult(s, false)
    else
      var next := if Acceptable(fs, urls[0]) then Enqueue(s, fs, urls[0]) else s;
      var rest := Drop(next, fs, urls[1..]);
      assert forall i :: 1 <= i < |urls| ==> urls[i] == urls[1..][i - 1];
      DropResult(rest.state, Acceptable(fs, urls[0]) || rest.accepted)
  }

  /** The dragged items that pass the drop zone's test, in drag order. */
  function Accepted(fs: Snapshot, urls: seq<Path>): (r: seq<Path>)
    ensures |r| <= |urls|
    ensures forall i :: 0 <= i < |r| ==> Acceptable(fs, r[i]) && r[i] in urls
    ensures forall i :: 0 <= i < |urls| && Acceptable(fs, urls[i]) ==> urls[i] in r
    ensures |r| == 0 <==> !AnyAcceptable(fs, urls)
    decreases |urls|
  {
    if |urls| == 0 then []
    else
      var rest := Accepted(fs, urls[1..]);
      assert forall i :: 1 <= i < |urls| ==> urls[i] == urls[1..][i - 1];
      if Acceptable(fs, urls[0]) then [urls[0]] + rest else rest
  }

  /** `enqueueJob` applied to each item in turn. */
  function EnqueueEach(s: QueueState, fs: Snapshot, urls: seq<Path>): (r: QueueState)
    ensures |urls| == 0 ==> r == s
    decreases |urls|
  {
    if |urls| == 0 then s else EnqueueEach(Enqueue(s, fs, urls[0]), fs, urls[1..])
  }

  /**
    A drop is exactly `enqueueJob` applied, in drag order, to the items that
    pass the test, and to nothing else.
   */
  lemma {:induction false} DropEnqueuesAccepted(s: QueueState, fs: Snapshot, urls: seq<Path>)
    ensures Drop(s, fs, urls).state == EnqueueEach(s, fs, Accepted(fs, urls))
    decreases |urls|
  {
    if |urls| > 0 {
      var next := if Acceptable(fs, urls[0]) then Enqueue(s, fs, urls[0]) else s;
      DropEnqueuesAccepted(next, fs, urls[1..]);
      if Acceptable(fs, urls[0]) {
        var acc := Accepted(fs, urls);
        assert acc[0] == urls[0] && acc[1..] == Accepted(fs, urls[1..]);
      }
    }
  }

  /**
    A drop keeps the state valid, never reorders or forgets a job, holds
    afterwards every item that passed the test, and holds nothing new that
    is not the standardized path of such an item.
   */
  lemma {:induction false} DropHoldsAccepted(s: QueueState, fs: Snapshot, urls: seq<Path>)
    requires Valid(s)
    ensures var r := Drop(s, fs, urls).state;
            && Valid(r)
            && Jobs(s) <= Jobs(r)
            && (forall i :: 0 <= i < |urls| && Acceptable(fs, urls[i]) ==> Standardize(urls[i]) in Jobs(r))
            && (forall p :: p in Jobs(r) ==>
                  p in Jobs(s) || exists i :: 0 <= i < |urls| && Acceptable(fs, urls[i]) && p == Standardize(urls[i]))
    decreases |urls|
  {
    if |urls| > 0 {
      var next := if Acceptable(fs, urls[0]) then Enqueue(s, fs, urls[0]) else s;
      if Acceptable(fs, urls[0]) {
        EnqueueValid(s, fs, urls[0]);
        EnqueueAppends(s, fs, urls[0]);
      }
      assert Jobs(s) <= Jobs(next);
      assert Acceptable(fs, urls[0]) ==> Standardize(urls[0]) in Jobs(next);
      DropHoldsAccepted(next, fs, urls[1..]);
      var r := Drop(s, fs, urls).state;
      assert r == Drop(next, fs, urls[1..]).state;
      forall i | 0 <= i < |urls| && Acceptable(fs, urls[i])
        ensures Standardize(urls[i]) in Jobs(r)
      {
        if i > 0 {
          assert urls[i] == urls[1..][i - 1];
        } else {
          PrefixKeeps(Jobs(next), Jobs(r), Standardize(urls[0]));
        }
      }
    }
    DropAddsOnlyAccepted(s, fs, urls);
  }

  /** Every job a drop adds is the standardized path of an item that passed the test. */
  lemma {:induction false} DropAddsOnlyAccepted(s: QueueState, fs: Snapshot, urls: seq<Path>)
    requires Valid(s)
    ensures var r := Drop(s, fs, urls).state;
            forall p :: p in Jobs(r) ==>
              p in Jobs(s) || exists i :: 0 <= i < |urls| && Acceptable(fs, urls[i]) && p == Standardize(urls[i])
    decreases |urls|
  {
    if |urls| > 0 {
      var next := if Acceptable(fs, urls[0]) then Enqueue(s, fs, urls[0]) else s;
      if Acceptable(fs, urls[0]) {
        EnqueueValid(s, fs, urls[0]);
        EnqueueAppends(s, fs, urls[0]);
      }
      assert forall p :: p in Jobs(next) ==> p in Jobs(s) || (Acceptable(fs, urls[0]) && p == Standardize(urls[0]));
      DropAddsOnlyAccepted(next, fs, urls[1..]);
      var r := Drop(s, fs, urls).state;
      assert r == Drop(next, fs, urls[1..]).state;
      forall p | p in Jobs(r)
        ensures p in Jobs(s) || exists i :: 0 <= i < |urls| && Acceptable(fs, urls[i]) && p == Standardize(urls[i])
      {
        if p !in Jobs(next) {
          var j :| 0 <= j < |urls[1..]| && Acceptable(fs, urls[1..][j]) && p == Standardize(urls[1..][j]);
          assert urls[j + 1] == urls[1..][j];
        }
      }
    }
  }

  lemma PrefixKeeps(a: seq<Path>, b: seq<Path>, x: Path)
    requires a <= b && x in a
    ensures x in b
  {
    var i :| 0 <= i < |a| && a[i] == x;
    assert b[i] == x;
  }
}

=== FILE: listing.dfy ===
/**
  How a folder's listing becomes a clip list: keep the names whose
  lower-cased extension is `mxf` or `mov`, then sort by name.
 */
module Listing {
  import opened Paths

  // ---------------------------------------------------------------------
  // Name order
  // ---------------------------------------------------------------------

  /** `a <= b` in lexicographic character order (Swift's `<` on the names, or equality). */
  predicate NameLe(a: string, b: string)
    decreases |a|
  {
    |a| == 0 || (|b| > 0 && (a[0] < b[0] || (a[0] == b[0] && NameLe(a[1..], b[1..]))))
  }

  lemma {:induction false} NameLeReflexive(a: string)
    ensures NameLe(a, a)
    decreases |a|
  {
    if |a| > 0 {
      NameLeReflexive(a[1..]);
    }
  }

  lemma {:induction false} NameLeTotal(a: string, b: string)
    ensures NameLe(a, b) || NameLe(b, a)
    decreases |a|
  {
    if |a| > 0 && |b| > 0 && a[0] == b[0] {
      NameLeTotal(a[1..], b[1..]);
    }
  }

  lemma {:induction false} NameLeAntisymmetric(a: string, b: string)
    requires NameLe(a, b) && NameLe(b, a)
    ensures a == b
    decreases |a|
  {
    if |a| > 0 {
      NameLeAntisymmetric(a[1..], b[1..]);
      assert a == [a[0]] + a[1..];
      assert b == [b[0]] + b[1..];
    }
  }

  lemma {:induction false} NameLeTransitive(a: string, b: string, c: string)
    requires NameLe(a, b) && NameLe(b, c)
    ensures NameLe(a, c)
    decreases |a|
  {
    if |a| > 0 && a[0] == b[0] && b[0] == c[0] {
      NameLeTransitive(a[1..], b[1..], c[1..]);
    }
  }

  predicate Sorted(s: seq<string>) {
    forall i, j :: 0 <= i < j < |s| ==> NameLe(s[i], s[j])
  }

  // ---------------------------------------------------------------------
  // Sorting
  // ---------------------------------------------------------------------

  /** A name no greater than any of a sorted list's names can go in front of it. */
  lemma ConsSorted(h: string, t: seq<string>)
    requires Sorted(t)
    requires forall y :: y in t ==> NameLe(h, y)
    ensures Sorted([h] + t)
  {
    var r := [h] + t;
    forall i, j | 0 <= i < j < |r| ensures NameLe(r[i], r[j]) {
      assert r[j] == t[j - 1];
      if i > 0 {
        assert r[i] == t[i - 1];
      }
    }
  }

  /** A name no greater than the head of a sorted list is no greater than any of its names. */
  lemma BelowHead(x: string, s: seq<string>)
    requires Sorted(s) && |s| > 0 && NameLe(x, s[0])
    ensures forall y :: y in s ==> NameLe(x, y)
  {
    forall y | y in s ensures NameLe(x, y) {
      var k :| 0 <= k < |s| && s[k] == y;
      if k > 0 {
        NameLeTransitive(x, s[0], s[k]);
      }
    }
  }

  function Insert(x: string, s: seq<string>): (r: seq<string>)
    requires Sorted(s)
    ensures Sorted(r)
    ensures multiset(r) == multiset(s) + multiset{x}
    ensures forall y :: y in r <==> y == x || y in s
  {
    if |s| == 0 then [x]
    else if NameLe(x, s[0]) then
      BelowHead(x, s);
      ConsSorted(x, s);
      [x] + s
    else
      NameLeTotal(x, s[0]);
      var t := Insert(x, s[1..]);
      assert forall y :: y in s[1..] ==> NameLe(s[0], y) by {
        forall y | y in s[1..] ensures NameLe(s[0], y) {
          var k :| 0 <= k < |s[1..]| && s[1..][k] == y;
          assert s[k + 1] == y;
        }
      }
      ConsSorted(s[0], t);
      assert s == [s[0]] + s[1..];
      [s[0]] + t
  }

  /** Sorting by name, as `sorted { $0.lastPathComponent < $1.lastPathComponent }`. */
  function SortNames(s: seq<string>): (r: seq<string>)
    ensures Sorted(r)
    ensures multiset(r) == multiset(s)
  {
    if |s| == 0 then []
    else
      assert s == [s[0]] + s[1..];
      Insert(s[0], SortNames(s[1..]))
  }

  /**
    A sorted arrangement of a multiset of names is unique: whatever order the
    directory listing came in, the clip order is the same.
   */
  lemma {:induction false} SortedUnique(a: seq<string>, b: seq<string>)
    requires Sorted(a) && Sorted(b)
    requires multiset(a) == multiset(b)
    ensures a == b
    decreases |a|
  {
    if |a| > 0 {
      assert |b| == |multiset(b)| == |a|;
      assert a[0] in multiset(b);
      assert b[0] in multiset(a);
      var i :| 0 <= i < |b| && b[i] == a[0];
      var j :| 0 <= j < |a| && a[j] == b[0];
      assert NameLe(b[0], a[0]) by {
        if i > 0 {
          assert NameLe(b[0], b[i]);
        } else {
          NameLeReflexive(a[0]);
        }
      }
      assert NameLe(a[0], b[0]) by {
        if j > 0 {
          assert NameLe(a[0], a[j]);
        }
      }
      NameLeAntisymmetric(a[0], b[0]);
      assert a == [a[0]] + a[1..];
      assert b == [b[0]] + b[1..];
      assert multiset(a) == multiset{a[0]} + multiset(a[1..]);
      assert multiset(b) == multiset{b[0]} + multiset(b[1..]);
      assert multiset(a[1..]) == multiset(a) - multiset{a[0]};
      assert multiset(b[1..]) == multiset(b) - multiset{b[0]};
      SortedUnique(a[1..], b[1..]);
    }
  }

  // ---------------------------------------------------------------------
  // Clip selection
  // ---------------------------------------------------------------------

  /** The listing's names that pass the media-extension test, in listing order. */
  function MediaNames(listing: seq<string>): (r: seq<string>)
    ensures forall n :: n in r <==> n in listing && IsMediaName(n)
    ensures multiset(r) <= multiset(listing)
  {
    if |listing| == 0 then []
    else
      assert listing == [listing[0]] + listing[1..];
      (if IsMediaName(listing[0]) then [listing[0]] else []) + MediaNames(listing[1..])
  }

  /** How many entries of a listing pass the media-extension test. */
  function CountMedia(listing: seq<string>): nat {
    if |listing| == 0 then 0
    else (if IsMediaName(listing[0]) then 1 else 0) + CountMedia(listing[1..])
  }

  /**
    The clip names of a folder: exactly its media entries, each as often as
    listed, in ascending name order.
   */
  function ClipNames(listing: seq<string>): (r: seq<string>)
    ensures Sorted(r)
    ensures multiset(r) == multiset(MediaNames(listing))
    ensures forall n :: n in r <==> n in listing && IsMediaName(n)
  {
    var m := MediaNames(listing);
    var r := SortNames(m);
    assert forall n :: n in r <==> n in m by {
      forall n ensures n in r <==> n in m {
        assert n in r <==> n in multiset(r);
        assert n in m <==> n in multiset(m);
      }
    }
    r
  }

  /** The count added at submission equals the number of clips the batch will walk. */
  lemma {:induction false} CountMatchesClips(listing: seq<string>)
    ensures CountMedia(listing) == |MediaNames(listing)| == |ClipNames(listing)|
  {
    if |listing| > 0 {
      CountMatchesClips(listing[1..]);
    }
    assert |ClipNames(listing)| == |multiset(ClipNames(listing))|;
    assert |MediaNames(listing)| == |multiset(MediaNames(listing))|;
  }

  /** The clip list depends on the listing's contents, not on its order. */
  lemma ClipNamesIgnoreOrder(l1: seq<string>, l2: seq<string>)
    requires multiset(l1) == multiset(l2)
    ensures ClipNames(l1) == ClipNames(l2)
  {
    var m1 := MediaNames(l1);
    var m2 := MediaNames(l2);
    assert multiset(m1) == multiset(m2) by {
      MediaMultiset(l1);
      MediaMultiset(l2);
      forall n ensures multiset(m1)[n] == multiset(m2)[n] {
      }
    }
    SortedUnique(ClipNames(l1), ClipNames(l2));
  }

  /** The media entries, as a multiset, are the listing's multiset restricted to media names. */
  lemma {:induction false} MediaMultiset(listing: seq<string>)
    ensures forall n :: multiset(MediaNames(listing))[n] == if IsMediaName(n) then multiset(listing)[n] else 0
  {
    if |listing| > 0 {
      MediaMultiset(listing[1..]);
      assert listing == [listing[0]] + listing[1..];
    }
  }
}

=== FILE: naming.dfy ===
/**
  The names the pipeline gives to what it writes: the output format chosen
  by the format selector, the proxy folder next to the dropped item, each
  clip's proxy file, and the two scratch files (the 8-bit intermediate of
  the MOV pre-pass and the hidden video-only file of the MXF first step).
 */
module Naming {
  import opened Paths

  datatype OutputFormat = QuickTime | Mxf

  /** `currentOutputFormat`: segment 1 of the selector is MXF, every other value QuickTime. */
  function FormatOf(selected: int): (r: OutputFormat)
    ensures r == Mxf <==> selected == 1
    ensures r == QuickTime <==> selected != 1
  {
    if selected == 1 then Mxf else QuickTime
  }

  /** The extension a proxy of the given format carries. */
  function FormatExtension(format: OutputFormat): (r: string)
    ensures |r| > 0 && '.' !in r && Lower(r) == r
    ensures r == "mov" <==> format == QuickTime
    ensures r == "mxf" <==> format == Mxf
  {
    var r := match format
      case QuickTime => "mov"
      case Mxf => "mxf";
    assert Lower(r) == r;
    r
  }

  // ---------------------------------------------------------------------
  // Destination folders
  // ---------------------------------------------------------------------

  /** Proxies of a dropped folder go to its sibling "<name> proxies". */
  function FolderDestination(folder: Path): (r: Path)
    ensures Parent(r) == Parent(folder)
    ensures LastComponent(r) == LastComponent(folder) + " proxies"
  {
    Append(Parent(folder), LastComponent(folder) + " proxies")
  }

  /** Proxies of a dropped file go to its sibling "m2p-proxies". */
  function FileDestination(file: Path): (r: Path)
    ensures Parent(r) == Parent(file)
    ensures LastComponent(r) == "m2p-proxies"
  {
    Append(Parent(file), "m2p-proxies")
  }

  // ---------------------------------------------------------------------
  // Per-clip names
  // ---------------------------------------------------------------------

  /** A name with a non-empty stem keeps that stem. */
  lemma StemNonEmpty(name: string)
    requires |name| > 0
    ensures |Stem(name)| > 0
  {
  }

  /**
    The proxy's file name: the clip's name without its extension, then the
    format's extension. Nothing else of the clip's name is changed.
   */
  function OutputName(clip: string, format: OutputFormat): (r: string)
    ensures |clip| > 0 ==> Stem(r) == Stem(clip) && Extension(r) == FormatExtension(format)
    ensures |clip| > 0 ==> IsMediaName(r)
    ensures |clip| > 0 ==> (IsMovName(r) <==> format == QuickTime)
  {
    var r := Stem(clip) + "." + FormatExtension(format);
    assert |clip| > 0 ==> Stem(r) == Stem(clip) && Extension(r) == FormatExtension(format) by {
      if |clip| > 0 {
        StemNonEmpty(clip);
        WithExtension(Stem(clip), FormatExtension(format));
      }
    }
    r
  }

  /** The AVFoundation pre-pass writes "<stem>_8bit.mov" into the proxy folder. */
  function IntermediateName(clip: string): (r: string)
    ensures Stem(r) == Stem(clip) + "_8bit" && Extension(r) == "mov"
    ensures IsMovName(r)
  {
    WithExtension(Stem(clip) + "_8bit", "mov");
    Stem(clip) + "_8bit" + "." + "mov"
  }

  /** The MXF first step writes the hidden ".<stem>_temp.mov" into the proxy folder. */
  function TempName(clip: string): (r: string)
    ensures |r| > 0 && r[0] == '.'
    ensures Stem(r) == "." + Stem(clip) + "_temp" && Extension(r) == "mov"
  {
    WithExtension("." + Stem(clip) + "_temp", "mov");
    "." + Stem(clip) + "_temp" + "." + "mov"
  }

  /**
    Within one clip the proxy and the two scratch files are three different
    names, so neither scratch file is ever written over the proxy, and
    removing one never removes the proxy.
   */
  lemma {:induction false} ScratchNamesDiffer(clip: string, format: OutputFormat)
    ensures OutputName(clip, format) != IntermediateName(clip)
    ensures OutputName(clip, format) != TempName(clip)
    ensures IntermediateName(clip) != TempName(clip)
  {
    assert |OutputName(clip, format)| == |Stem(clip)| + 4;
    assert |IntermediateName(clip)| == |Stem(clip)| + 9;
    assert |TempName(clip)| == |Stem(clip)| + 10;
  }

  /**
    Two clips get the same proxy name exactly when their names have the same
    stem: `A001.mxf` and `A001.mov` in one folder share a proxy.
   */
  lemma {:induction false} ProxyNameSharedByStem(a: string, b: string, format: OutputFormat)
    requires |a| > 0 && |b| > 0
    ensures OutputName(a, format) == OutputName(b, format) <==> Stem(a) == Stem(b)
  {
    if OutputName(a, format) == OutputName(b, format) {
      assert Stem(OutputName(a, format)) == Stem(a);
      assert Stem(OutputName(b, format)) == Stem(b);
    }
  }
}

=== FILE: paths.dfy ===
/**
  File-system paths as the conversion pipeline sees them through Foundation's
  `URL`: an absolute path is a list of components, and the operations are the
  few `URL` members the pipeline uses (`standardizedFileURL`,
  `lastPathComponent`, `deletingLastPathComponent`, `appendingPathComponent`,
  `pathExtension`, `deletingPathExtension`, `path`).
 */
module Paths {

  /** An absolute path `/c0/c1/.../cn` as its components. */
  datatype Path = Path(components: seq<string>)

  /** `appendingPathComponent(name)`. */
  function Append(p: Path, name: string): (r: Path)
    ensures Parent(r) == p && LastComponent(r) == name
    ensures |r.components| == |p.components| + 1
  {
    Path(p.components + [name])
  }

  /** `lastPathComponent`; the root has none (Foundation answers "/"). */
  function LastComponent(p: Path): string {
    if |p.components| == 0 then "" else p.components[|p.components| - 1]
  }

  /** `deletingLastPathComponent()`; the root is its own parent. */
  function Parent(p: Path): Path {
    if |p.components| == 0 then p else Path(p.components[..|p.components| - 1])
  }

  // ---------------------------------------------------------------------
  // Standardization
  // ---------------------------------------------------------------------

  predicate IsDotSegment(s: string) {
    s == "." || s == ".."
  }

  predicate NoDotSegments(cs: seq<string>) {
    forall i :: 0 <= i < |cs| ==> !IsDotSegment(cs[i])
  }

  /** A path without `.` or `..` components: one the lexical part of `standardizedFileURL` leaves as it is. */
  predicate Standard(p: Path) {
    NoDotSegments(p.components)
  }

  /**
    Dot-segment removal over components, left to right, as in section 5.2.4
    of RFC 3986: "." is dropped, ".." removes the component before it, and a
    ".." at the root is dropped. `done` holds the components already resolved.
   */
  function Resolve(done: seq<string>, rest: seq<string>): (r: seq<string>)
    requires NoDotSegments(done)
    ensures NoDotSegments(r)
    ensures |r| <= |done| + |rest|
    decreases |rest|
  {
    if |rest| == 0 then done
    else if rest[0] == "." then Resolve(done, rest[1..])
    else if rest[0] == ".." then
      Resolve(if |done| == 0 then done else done[..|done| - 1], rest[1..])
    else Resolve(done + [rest[0]], rest[1..])
  }

  /**
    The lexical part of `standardizedFileURL`: `.` components are dropped and
    `..` removes the component before it. Foundation also resolves `..`
    through symbolic links, strips a leading `/private` when the shorter
    path exists, and expands a leading tilde; none of that is modelled.
   */
  function Standardize(p: Path): (r: Path)
    ensures Standard(r)
    ensures |r.components| <= |p.components|
  {
    Path(Resolve([], p.components))
  }

  lemma {:induction false} ResolveKeeps(done: seq<string>, rest: seq<string>)
    requires NoDotSegments(done) && NoDotSegments(rest)
    ensures Resolve(done, rest) == done + rest
    decreases |rest|
  {
    if |rest| > 0 {
      assert !IsDotSegment(rest[0]);
      ResolveKeeps(done + [rest[0]], rest[1..]);
      assert done + [rest[0]] + rest[1..] == done + rest;
    }
  }

  /** A path is standard exactly when standardizing leaves it unchanged. */
  lemma StandardizeFixes(p: Path)
    ensures Standardize(p) == p <==> Standard(p)
  {
    if Standard(p) {
      ResolveKeeps([], p.components);
      assert [] + p.components == p.components;
    }
  }

  /** Standardizing twice is standardizing once. */
  lemma StandardizeIdempotent(p: Path)
    ensures Standardize(Standardize(p)) == Standardize(p)
  {
    StandardizeFixes(Standardize(p));
  }

  // ---------------------------------------------------------------------
  // Extensions
  // ---------------------------------------------------------------------

  /** Index of the last `c` in `s`, or -1 when `s` has none. */
  function LastIndex(s: string, c: char): (r: int)
    ensures -1 <= r < |s|
    ensures r >= 0 ==> s[r] == c
    ensures forall j :: r < j < |s| ==> s[j] != c
  {
    if |s| == 0 then -1
    else if s[|s| - 1] == c then |s| - 1
    else LastIndex(s[..|s| - 1], c)
  }

  /**
    Index of the dot that starts the extension of `name`, or -1: the last
    dot counts when it is neither the first character (a hidden name such as
    ".mov" has no extension) nor the last one.
   */
  function ExtensionDot(name: string): (r: int)
    ensures -1 <= r < |name|
  {
    var i := LastIndex(name, '.');
    if 0 < i < |name| - 1 then i else -1
  }

  /** `pathExtension` of a component, without the dot; "" when there is none. */
  function Extension(name: string): string {
    var i := ExtensionDot(name);
    if i < 0 then "" else name[i + 1..]
  }

  /** `deletingPathExtension()` of a component. */
  function Stem(name: string): string {
    var i := ExtensionDot(name);
    if i < 0 then name else name[..i]
  }

  /** Stem and extension split a name without losing anything. */
  lemma StemExtension(name: string)
    ensures Extension(name) == "" ==> Stem(name) == name
    ensures Extension(name) != "" ==> Stem(name) + "." + Extension(name) == name
    ensures '.' !in Extension(name)
  {
    var i := ExtensionDot(name);
    if i >= 0 {
      assert name[..i] + "." + name[i + 1..] == name[..i] + name[i..];
      assert name[..i] + name[i..] == name;
    }
  }

  /** Appending ".ext" to a non-empty stem gives a name with that stem and extension. */
  lemma {:induction false} WithExtension(stem: string, ext: string)
    requires |stem| > 0 && |ext| > 0 && '.' !in ext
    ensures Extension(stem + "." + ext) == ext
    ensures Stem(stem + "." + ext) == stem
  {
    var name := stem + "." + ext;
    assert name[|stem|] == '.';
    var i := LastIndex(name, '.');
    assert i >= |stem|;
    assert i == |stem| by {
      forall j | |stem| < j < |name|
        ensures name[j] != '.'
      {
        assert name[j] == ext[j - |stem| - 1];
      }
    }
    assert name[i + 1..] == ext;
    assert name[..i] == stem;
  }

  function LowerChar(c: char): char {
    if 'A' <= c <= 'Z' then (c as int - 'A' as int + 'a' as int) as char else c
  }

  /** `lowercased()`, restricted to ASCII letters. */
  function Lower(s: string): (r: string)
    ensures |r| == |s|
    ensures forall i :: 0 <= i < |s| ==> r[i] == LowerChar(s[i])
  {
    seq(|s|, i requires 0 <= i < |s| => LowerChar(s[i]))
  }

  /** The extension test the pipeline applies to every candidate clip. */
  predicate IsMediaName(name: string) {
    var e := Lower(Extension(name));
    e == "mxf" || e == "mov"
  }

  /** The test that sends a clip down the MOV branches. */
  predicate IsMovName(name: string) {
    Lower(Extension(name)) == "mov"
  }

  // ---------------------------------------------------------------------
  // Rendering
  // ---------------------------------------------------------------------

  function JoinComponents(cs: seq<string>): string {
    if |cs| == 0 then ""
    else if |cs| == 1 then cs[0]
    else cs[0] + "/" + JoinComponents(cs[1..])
  }

  /** The `path` string of a file URL: always absolute, so never empty and never an option flag. */
  function Text(p: Path): (r: string)
    ensures |r| > 0 && r[0] == '/'
  {
    "/" + JoinComponents(p.components)
  }

  lemma {:induction false} JoinAppend(cs: seq<string>, name: string)
    ensures JoinComponents(cs + [name]) == if |cs| == 0 then name else JoinComponents(cs) + "/" + name
  {
    if |cs| == 1 {
      assert cs + [name] == [cs[0], name];
      assert (cs + [name])[1..] == [name];
    } else if |cs| > 1 {
      assert (cs + [name])[1..] == cs[1..] + [name];
      JoinAppend(cs[1..], name);
    }
  }

  /** Different names in the same folder have different path strings. */
  lemma {:induction false} TextAppendInjective(p: Path, a: string, b: string)
    requires a != b
    ensures Text(Append(p, a)) != Text(Append(p, b))
  {
    JoinAppend(p.components, a);
    JoinAppend(p.components, b);
    var head := if |p.components| == 0 then "/" else "/" + JoinComponents(p.components) + "/";
    assert Text(Append(p, a)) == head + a;
    assert Text(Append(p, b)) == head + b;
    if head + a == head + b {
      SameTail(head, a, b);
    }
  }

  lemma SameTail(head: string, a: string, b: string)
    requires head + a == head + b
    ensures a == b
  {
    assert a == (head + a)[|head|..];
    assert b == (head + b)[|head|..];
  }
}

=== FILE: wrappers.dfy ===
/** Optional values, used wherever the source has a Swift optional. */
module Wrappers {

  datatype Option<+T> = None | Some(value: T)
}
